=== FILE: README.md ===
# Visual-novel core: dialogue cursor, game state, scene store, character registry

A Dafny model of the engine-independent logic of a Unity visual-novel
framework (C#, `_Mino_MCP_TRAE/Assets/Scripts`). It covers four components:

- **DialogueSystem** (`dialogue.dfy`). The dialogue cursor
  `(currentScene, currentLineIndex, isTyping)` and the labels it drives.
  The typing coroutine is modelled as a revealed-prefix count (`Reveal`).
  Each user action is a pure step function: `StartScene`, `DisplayNextLine`,
  `CompleteTyping`, `ShowChoices`, `OnChoiceSelected` and
  `SkipCurrentDialogue`. A C# exception becomes an `Outcome` whose fault is
  set and whose state keeps every assignment made before the throw.
- **GameState** (`game_state.dfy`). The flag, variable and affection
  dictionaries of `GameManager`, and the `hh:mm:ss` play-time formatting.
- **SceneStore** (`scene_store.dfy`). The scene list and scene dictionary of
  `SceneDataManager`, with start-up, lookup, the chapter filter, add, remove,
  `GetNextScene` and `HasChoices`.
- **Characters** (`characters.dfy`). The profile registry of
  `CharacterManager`: lookup, bounds-checked expression portraits, the default
  name colour, the profile text and the name list.

Shared pieces:

- `content.dfy` holds the authored data types.
- `index.dfy` holds the "last item wins" dictionary build both registries use,
  together with an independent reference (`LastIndex`).
- `text.dfy` holds the string operations the C# relies on. These are
  `StartsWith`, `Replace(pat, "")`, decimal rendering and `{0:00}` padding.
- `walkthrough.dfy` proves properties of whole runs:
  - a reveal completes;
  - a scene is read line by line;
  - an affection entry and a flag entry on plain names combine independently
    of their order, while two keys routed to the same flag do not;
  - what an interrupted scene start leaves behind;
  - the opening of the built-in demo story.

Sprites and audio clips are opaque `Asset` handles. A null reference is
`None`. Sprites, audio clips and colours are passed through and never
interpreted.

## Model

| member | source | states |
|---|---|---|
| `Content.Ordinal` | _Mino_MCP_TRAE/Assets/Scripts/DialogueSystem.cs:60-72 | `(int)expression` is below 5, and it is 0 exactly for `Normal`. |
| `Content.OrdinalInjective` | _Mino_MCP_TRAE/Assets/Scripts/DialogueSystem.cs:60-72 | Two expressions with the same ordinal are the same expression, so distinct expressions index distinct portrait slots. |
| `Text.RemoveAll` | _Mino_MCP_TRAE/Assets/Scripts/DialogueSystem.cs:314 | `Replace(pat, "")` never lengthens the key, is the identity when `pat` does not occur, and deletes at least one whole occurrence when it does. |
| `Text.RemovePrefixOnly` | _Mino_MCP_TRAE/Assets/Scripts/DialogueSystem.cs:319 | For `pat + rest` where `rest` contains no `pat`, `Replace` gives back exactly `rest`. |
| `Text.RemoveAllInner` | _Mino_MCP_TRAE/Assets/Scripts/DialogueSystem.cs:319 | `Replace` deletes inner occurrences as well: `"flag_a_flag_b"` becomes `"a_b"`. |
| `Text.NatToDecimal` | _Mino_MCP_TRAE/Assets/Scripts/GameManager.cs:185 | The decimal rendering of `n` is a non-empty digit string that reads back as `n`, has no leading zero unless `n == 0`, and has one digit exactly when `n < 10`. |
| `Text.IntToDecimal` | _Mino_MCP_TRAE/Assets/Scripts/SceneDataManager.cs:385 | The interpolated rendering of an `int` spells that number: for a non-negative number its digits read back as it with no leading zero (except `0`), and for a negative one a minus sign is followed by the digits of its magnitude, again without a leading zero. It is all digits exactly when the number is non-negative, and never contains `_`. |
| `Text.IntToDecimalInjective` | _Mino_MCP_TRAE/Assets/Scripts/SceneDataManager.cs:385 | Distinct chapter numbers render as distinct strings. |
| `Text.Pad2` | _Mino_MCP_TRAE/Assets/Scripts/GameManager.cs:185 | `{0:00}` gives at least two digits, exactly two below 100, no leading zero from 10 up, and the digits read back as the number. |
| `Index.LastWins` | _Mino_MCP_TRAE/Assets/Scripts/SceneDataManager.cs:48-51 | After `dict[key(item)] = item` over the list, every listed key is present, and every present key has a last position in the list. |
| `Index.LastWinsSpec` | _Mino_MCP_TRAE/Assets/Scripts/SceneDataManager.cs:48-51 | The keys built are exactly the keys of the list, and each maps to the item at the LAST position carrying it (reference `LastIndex`). |
| `Index.LastWinsUnique` | _Mino_MCP_TRAE/Assets/Scripts/SceneDataManager.cs:48-51 | With no repeated key, every item is found under its own key. |
| `GameState.InitializeGameData` | _Mino_MCP_TRAE/Assets/Scripts/GameManager.cs:59-69 | Alice, Bob and Carol read affection 0, `money` is 100 and `reputation` 0; flags and all other entries are unchanged. |
| `GameState.SetFlag` | _Mino_MCP_TRAE/Assets/Scripts/GameManager.cs:76-79 | The set flag reads back as the value given; every other flag, the variables and the affection are unchanged. |
| `GameState.GetFlag` | _Mino_MCP_TRAE/Assets/Scripts/GameManager.cs:86-89 | A flag that was never set reads false. |
| `GameState.ChangeAffection` | _Mino_MCP_TRAE/Assets/Scripts/GameManager.cs:96-102 | For a known character the amount is added exactly (over unbounded integers), without clamping. An unknown character leaves the whole state unchanged. No other character, flag or variable changes, and the set of known characters stays the same. |
| `GameState.GetAffection` | _Mino_MCP_TRAE/Assets/Scripts/GameManager.cs:109-112 | An unknown character reads 0. |
| `GameState.Clock` | _Mino_MCP_TRAE/Assets/Scripts/GameManager.cs:182-184 | The hours, minutes and seconds fields satisfy `m < 60`, `s < 60` and `h*3600 + m*60 + s == t`. |
| `GameState.FormatPlayTime` | _Mino_MCP_TRAE/Assets/Scripts/GameManager.cs:180-186 | The text has colons in the two fixed positions counted from the end. It is exactly 8 characters below 100 hours, and from 10 hours up the hours field has no leading zero. With `PlayTimeRoundTrip` this pins the `{0:00}` layout. |
| `GameState.SplitPlayTime` | _Mino_MCP_TRAE/Assets/Scripts/GameManager.cs:185 | A split of `hh:mm:ss` joins back to the input, with two-character minute and second fields. |
| `GameState.PlayTimeRoundTrip` | _Mino_MCP_TRAE/Assets/Scripts/GameManager.cs:180-186 | Parsing the formatted play time gives back the same number of seconds. |
| `SceneStore.InitializeScenes` | _Mino_MCP_TRAE/Assets/Scripts/SceneDataManager.cs:45-58 | The list is kept, or replaced by the demo scenes when empty. The dictionary keys are exactly the listed ids, and for a repeated id the last listed scene wins. |
| `SceneStore.InitializeScenesValid` | _Mino_MCP_TRAE/Assets/Scripts/SceneDataManager.cs:45-58 | With unique ids the start-up store is consistent: the keys are the listed ids, and each id maps to its listed scene. |
| `SceneStore.GetScene` | _Mino_MCP_TRAE/Assets/Scripts/SceneDataManager.cs:369-376 | The lookup finds a scene exactly when the id is a key, and then it is the stored scene; otherwise it returns null. |
| `SceneStore.GetSceneListed` | _Mino_MCP_TRAE/Assets/Scripts/SceneDataManager.cs:369-376 | In a consistent store, a found scene is in the list and carries the requested id. |
| `SceneStore.GetScenesByChapter` | _Mino_MCP_TRAE/Assets/Scripts/SceneDataManager.cs:383-386 | A scene is in the result exactly when it is listed and its id starts with `scene_<chapter>_`. The result keeps list order (a subsequence), and each matching scene occurs as often as in the list. |
| `SceneStore.FilterPrefix` | _Mino_MCP_TRAE/Assets/Scripts/SceneDataManager.cs:385 | `FindAll` keeps exactly the matching scenes, as an order-preserving subsequence no longer than the list, with every matching occurrence kept (equal multiplicities). |
| `SceneStore.ChaptersDisjoint` | _Mino_MCP_TRAE/Assets/Scripts/SceneDataManager.cs:385 | No scene id matches the prefixes of two different chapters. |
| `SceneStore.AddScene` | _Mino_MCP_TRAE/Assets/Scripts/SceneDataManager.cs:392-399 | A known id changes nothing. A new id appends the scene, makes it the lookup result for its id, and leaves every other lookup unchanged. Consistency is preserved. |
| `SceneStore.RemoveFirst` | _Mino_MCP_TRAE/Assets/Scripts/SceneDataManager.cs:410 | `List.Remove` deletes only the first occurrence and is the identity when the item is absent. |
| `SceneStore.RemoveScene` | _Mino_MCP_TRAE/Assets/Scripts/SceneDataManager.cs:405-413 | Afterwards the id is not found, an unknown id changes nothing, and every other lookup is unchanged. For a known id, in every store, the list loses one copy of the stored scene and keeps the rest in order (a subsequence with multiset one smaller). In a consistent store the result also stays consistent and loses exactly that id from the list. |
| `SceneStore.RemoveFirstDeletes` | _Mino_MCP_TRAE/Assets/Scripts/SceneDataManager.cs:410 | On any list, `List.Remove` leaves one copy of the item fewer (multiset difference) and the other items in their order. |
| `SceneStore.RemoveSceneIdempotent` | _Mino_MCP_TRAE/Assets/Scripts/SceneDataManager.cs:405-413 | Removing the same id twice is removing it once. |
| `SceneStore.DuplicateIdOutlivesRemove` | _Mino_MCP_TRAE/Assets/Scripts/SceneDataManager.cs:405-413 | When two scenes share an id at start-up, removing that id deletes the later one (the one in the dictionary). The earlier one stays listed under an id the dictionary no longer knows. |
| `SceneStore.GetNextScene` | _Mino_MCP_TRAE/Assets/Scripts/SceneDataManager.cs:420-428 | There is a next id exactly when `HasChoices`, and it is the first choice's target; otherwise null. |
| `SceneStore.HasChoices` | _Mino_MCP_TRAE/Assets/Scripts/SceneDataManager.cs:435-439 | Holds exactly when the scene exists and has at least one choice. |
| `Characters.InitializeCharacters` | _Mino_MCP_TRAE/Assets/Scripts/CharacterManager.cs:66-73 | The names registered are exactly the listed names, and a repeated name maps to its last listed profile. |
| `Characters.GetCharacterAfterInit` | _Mino_MCP_TRAE/Assets/Scripts/CharacterManager.cs:80-87 | After start-up, a name is found exactly when some listed character carries it. The profile found carries that name, and no later listed profile does. |
| `Characters.GetCharacter` | _Mino_MCP_TRAE/Assets/Scripts/CharacterManager.cs:80-87 | The registered profile when the name is a key, otherwise null. |
| `Characters.GetExpressionSprite` | _Mino_MCP_TRAE/Assets/Scripts/CharacterManager.cs:95-103 | A portrait is returned only when the character exists and has a slot at the expression's ordinal, and then it is that slot. Every such slot is returned. No out-of-range index is read. |
| `Characters.GetNameColor` | _Mino_MCP_TRAE/Assets/Scripts/CharacterManager.cs:110-114 | The registered colour, or white for an unknown name. |
| `Characters.GetCharacterInfo` | _Mino_MCP_TRAE/Assets/Scripts/CharacterManager.cs:121-129 | The result is the fixed not-found text exactly when the name is unknown. Otherwise it starts with the full-name line. |
| `Characters.GetAllCharacterNames` | _Mino_MCP_TRAE/Assets/Scripts/CharacterManager.cs:135-138 | Every registered name exactly once and nothing else (membership both ways, no repeats, as many names as keys). |
| `DialogueSystem.InitialInv` | _Mino_MCP_TRAE/Assets/Scripts/DialogueSystem.cs:114-117 | The initial cursor (no scene, index 0, not typing) satisfies the cursor invariant. |
| `DialogueSystem.ShowLine` | _Mino_MCP_TRAE/Assets/Scripts/DialogueSystem.cs:196-232 | Displaying a line switches the name label and portrait to it. Typing is in progress exactly when the text is non-empty. The visible text is a prefix of the line's text. The cursor does not move. |
| `DialogueSystem.Tick` | _Mino_MCP_TRAE/Assets/Scripts/DialogueSystem.cs:239-251 | One coroutine resumption appends exactly the next character, or after the last one ends typing. It keeps the invariant, and when typing ends the whole line is visible. |
| `DialogueSystem.CompleteTyping` | _Mino_MCP_TRAE/Assets/Scripts/DialogueSystem.cs:256-266 | From a displayed line it shows that line's full text and ends typing, without moving the cursor. At index 0 it throws for index -1 and leaves typing set. With no scene it throws a null dereference. |
| `DialogueSystem.ShowChoices` | _Mino_MCP_TRAE/Assets/Scripts/DialogueSystem.cs:271-299 | A scene with choices opens the panel offering exactly its choices. A scene without choices changes nothing. The cursor and labels are untouched. |
| `DialogueSystem.DisplayNextLine` | _Mino_MCP_TRAE/Assets/Scripts/DialogueSystem.cs:161-194 | The two-phase advance. While typing, it only completes the text of line `index - 1`, and the index stays. Otherwise the line at the index is shown and the index grows by one, or at the end the choices are offered and the index stays; at the end of a scene without choices nothing changes. The invariant `index <= Count` and the rest of the cursor invariant are preserved. |
| `DialogueSystem.SkipCurrentDialogue` | _Mino_MCP_TRAE/Assets/Scripts/DialogueSystem.cs:344-357 | Skipping keeps the cursor invariant and never throws from a kept state. |
| `DialogueSystem.SkipIsAdvance` | _Mino_MCP_TRAE/Assets/Scripts/DialogueSystem.cs:344-353 | In every state the handlers keep, skipping has exactly the effect of an advance. |
| `DialogueSystem.StartScene` | _Mino_MCP_TRAE/Assets/Scripts/DialogueSystem.cs:139-159 | An unknown id changes nothing. A known scene becomes current. When not typing, a non-empty scene ends at index 1 showing its first line, typing exactly when that line has text, with the choice panel untouched; an empty scene stays at 0. When typing, it throws for index -1 and leaves typing set at index 0. |
| `DialogueSystem.StartSceneCancelling` | _Mino_MCP_TRAE/Assets/Scripts/DialogueSystem.cs:139-159 | The corrected start: from every kept state it keeps the invariant and never throws. It agrees with `StartScene` whenever no reveal is running. |
| `DialogueSystem.ApplyEffect` | _Mino_MCP_TRAE/Assets/Scripts/DialogueSystem.cs:312-321 | An `affection_` key adds the value to the character named by the key with every `affection_` deleted, if that character is known. Otherwise a `flag_` key sets the named flag to `value > 0`. Any other key changes nothing. Nothing else changes. |
| `DialogueSystem.ApplyEffects` | _Mino_MCP_TRAE/Assets/Scripts/DialogueSystem.cs:308-323 | Applying the entries in order never touches the variables and never adds or removes a known character. Each known character's affection grows by exactly the total of the values routed to it (`AffectionSum`), and an unknown one stays at 0. |
| `DialogueSystem.AffectionSum` | _Mino_MCP_TRAE/Assets/Scripts/DialogueSystem.cs:310-316 | The reference for affection: the total of the values of the entries routed to a character, 0 when none is. |
| `DialogueSystem.LastFlag` | _Mino_MCP_TRAE/Assets/Scripts/DialogueSystem.cs:310-321 | The reference for flags: absent exactly when no entry is routed to the flag, and otherwise the value of the last entry that is. |
| `DialogueSystem.ApplyEffectsAppend` | _Mino_MCP_TRAE/Assets/Scripts/DialogueSystem.cs:308-323 | Applying a concatenation of entries equals applying the first part and then the second. |
| `DialogueSystem.ApplyEffectsFlag` | _Mino_MCP_TRAE/Assets/Scripts/DialogueSystem.cs:308-323 | After the entries, each flag holds the value set by the last entry routed to it (`value > 0`), and keeps its old value when none is. |
| `DialogueSystem.OnChoiceSelected` | _Mino_MCP_TRAE/Assets/Scripts/DialogueSystem.cs:305-327 | The effects are applied, then the target scene is started. A missing target keeps the applied effects and leaves the cursor as it was. From a kept, non-typing state the result keeps the invariant. |
| `Walkthrough.RevealCompletes` | _Mino_MCP_TRAE/Assets/Scripts/DialogueSystem.cs:239-251 | Left alone, a reveal ends after `|text| - count + 1` resumptions with the whole line visible and typing over. The cursor does not move. |
| `Walkthrough.StepFromLine` | _Mino_MCP_TRAE/Assets/Scripts/DialogueSystem.cs:161-194 | From a displayed line, finishing and advancing shows that line in full, then moves to the next line or, after the last, offers the choices. |
| `Walkthrough.ReadTranscript` | _Mino_MCP_TRAE/Assets/Scripts/DialogueSystem.cs:161-194 | `n` finish-and-advance steps show the next `n` lines in order, each with its speaker and full text. |
| `Walkthrough.ReadSteps` | _Mino_MCP_TRAE/Assets/Scripts/DialogueSystem.cs:161-194 | After `n` steps the cursor is `n` lines on, or, past the last line, at the end with the scene's choices offered. |
| `Walkthrough.SceneRun` | _Mino_MCP_TRAE/Assets/Scripts/DialogueSystem.cs:139-194 | Starting a scene and reading it shows every line exactly once in order, then offers its choices. A scene without lines offers them at once. |
| `Walkthrough.EffectOrderIrrelevant` | _Mino_MCP_TRAE/Assets/Scripts/DialogueSystem.cs:308-323 | An affection entry and a flag entry on plain names give the same state in either enumeration order, and both land. |
| `Walkthrough.FlagOrderMatters` | _Mino_MCP_TRAE/Assets/Scripts/DialogueSystem.cs:317-321 | Effect order matters when two keys route to the same flag: `flag_a` then `flag_flag_a` leaves flag `a` as the second sets it, and the reverse order as the first does. |
| `Walkthrough.DoubledFlagKey` | _Mino_MCP_TRAE/Assets/Scripts/DialogueSystem.cs:319-320 | `flag_flag_a` sets flag `a`, because `Replace` deletes both occurrences of the prefix. |
| `Walkthrough.AffectionKey` | _Mino_MCP_TRAE/Assets/Scripts/DialogueSystem.cs:312-316 | `affection_<name>` on a name without that prefix inside is `ChangeAffection(name, value)`. |
| `Walkthrough.FlagKey` | _Mino_MCP_TRAE/Assets/Scripts/DialogueSystem.cs:317-321 | `flag_<name>` on a name without that prefix inside is `SetFlag(name, value > 0)`. |
| `Walkthrough.ReplaceDeletesInnerPrefix` | _Mino_MCP_TRAE/Assets/Scripts/DialogueSystem.cs:317-321 | The key `flag_a_flag_b` sets flag `a_b` and leaves flag `a_flag_b` as it was. |
| `Walkthrough.InterruptedStartWedges` | _Mino_MCP_TRAE/Assets/Scripts/DialogueSystem.cs:256-266 | A start while typing throws, and the state it leaves (scene set, typing, index 0) is never left again: every advance, skip, reveal step or further start keeps it. |
| `Walkthrough.SecondChoiceWedges` | _Mino_MCP_TRAE/Assets/Scripts/DialogueSystem.cs:271-299 | The choice panel is never closed. While the chosen scene's first line types, the old choices are still offered. Submitting one of them with the Enter key, with no advance in between, throws when its target exists and wedges the dialogue. |
| `Walkthrough.ClickedSecondChoiceRestarts` | _Mino_MCP_TRAE/Assets/Scripts/DialogueSystem.cs:305-337 | A mouse click on an old choice does not wedge: the press's advance completes the typed line, then the second choice starts its scene without a fault, and its affection adds to the first choice's. |
| `Walkthrough.CancellingStartRecovers` | _Mino_MCP_TRAE/Assets/Scripts/DialogueSystem.cs:139-159 | The corrected start succeeds while typing and never leaves the wedged state. |
| `Walkthrough.DemoStoreHolds` | _Mino_MCP_TRAE/Assets/Scripts/SceneDataManager.cs:341-361 | The demo store finds `scene_1_1` and `alice_route_1` as authored. |
| `Walkthrough.DemoOpening` | _Mino_MCP_TRAE/Assets/Scripts/UIManager.cs:476-486 | A new game shows Alice's line typing at index 1. Two advances reach Bob's line, still typing. Two more open the three choices. Picking the first takes Alice's affection to 5, leaves Bob at 0, and starts her route at line 1. |
| `Walkthrough.DemoFirstChoice` | _Mino_MCP_TRAE/Assets/Scripts/SceneDataManager.cs:86-94 | From any kept, non-typing state, the first demo choice starts `alice_route_1` without a fault and sets Alice's affection to 5. |
| `Walkthrough.DemoFirstEffect` | _Mino_MCP_TRAE/Assets/Scripts/SceneDataManager.cs:90-93 | On a new game the effect `affection_Alice: 5` gives Alice 5 and leaves Bob at 0. |
| `Walkthrough.AffectionUnbounded` | _Mino_MCP_TRAE/Assets/Scripts/GameConfig.cs:17-18 | The declared maximum affection of 100 is never enforced: one +10 change takes a character at 100 past it. |

## Left out

- Audio (voice clips, the skip sound, background music), panel animation and
  all UI glue outside the dialogue system are not modelled. Their calls have
  no effect on the state modelled here.
- The typing speed and the per-character wait are not modelled. A reveal
  resumption is an abstract `Tick`, and time never appears.
- The `Update` input polling and the autoplay toggle are not modelled. An
  advance is a call to `DisplayNextLine`.
- Saving, loading and save-slot data are not modelled: they are empty stubs or
  PlayerPrefs/JSON I/O.
- `GameState.FormatPlayTime` takes non-negative whole seconds. The source's
  `float` input and `FloorToInt` are not modelled, because floating point is
  out of scope.
- Null lists and dictionaries inside scenes and choices are modelled as empty
  sequences. Where the source guards against null this is exact: `StartScene`
  replaces null `dialogueLines` by an empty list, and a null `effects`
  dictionary is skipped. Where it does not, the fault is not modelled: a null
  `choices` list throws `NullReferenceException` in `ShowChoices`,
  `GetNextScene` and `HasChoices` (DialogueSystem.cs:273,
  SceneDataManager.cs:423, 438), and a null `expressions` array throws in
  `GetExpressionSprite` (CharacterManager.cs:98). The model instead changes
  nothing, or returns null or false. Unity deserialises serialised lists and
  arrays as non-null, and every scene the framework builds in code sets
  `choices`, so these faults do not arise from the shipped content.
- The UI label fields are assumed bound. The early returns in
  `DisplayDialogueLine` for missing labels are not modelled.
- `Characters.GetAllCharacterNames` returns the names in an arbitrary order.
  Dictionary enumeration order is unspecified in .NET, and the model does not
  fix one.
- Effect dictionaries are modelled as sequences in enumeration order, for the
  same reason.
- `SceneStore.RemoveFirst` compares scenes by value, while `List.Remove` on
  `SceneData` compares references. The two agree whenever ids are unique, the
  consistent case the store invariant describes. `SceneStore.RemoveScene`'s
  list clauses hold for every store, and the conclusion of
  `SceneStore.DuplicateIdOutlivesRemove` (an earlier scene with the removed id
  stays listed) holds under either comparison.
- `StartsWith` and `ToString` are culture-sensitive in .NET. The model uses
  plain ordinal comparison and invariant-culture digits.
- The expression enum has only the five declared values. The demo content
  also uses `Excited`, `Mysterious`, `Serious` and `Confident`, which are not
  declared (SceneDataManager.cs:132, 214, 220, 289).
  Because of that, `Walkthrough.AliceRoute1` keeps only the route's first line.
- `Walkthrough.DemoOpening` uses a store holding the first two demo scenes
  rather than all ten. The other eight have ids that neither scene it reads
  looks up.
- The demo scene content itself (`CreateDemoScenes`) is a parameter of
  `InitializeScenes` rather than a built-in list.
- The choice is handed to `OnChoiceSelected` as the `Choice` object, as the
  code does; there is no index and no invalid-index error. An effect is a
  string key and an integer, routed by its prefix.
- Adding a scene with a known id is silently ignored, as the code does; there
  is no duplicate-id error.
- `GameState.ChangeAffection` adds over unbounded integers. The source's `+=`
  on a 32-bit `int` wraps past 2147483647; affection values stay far from that
  in any story the framework ships, so the wrap is not modelled.
- Strings are sequences of Unicode scalar values, while .NET strings are UTF-16
  code units. For text outside the Basic Multilingual Plane (emoji, say), the
  number of reveal steps in `DialogueSystem.Tick` and the lengths and indices
  used by `StartsWith` and `Replace` differ from the source.
- Scene ids and choice targets are never null in the model. In the source a
  null `sceneId` or `nextScene` makes the dictionary lookup throw
  `ArgumentNullException` (SceneDataManager.cs:371, 407); that fault has no
  case here.

## Findings

| source | as written | input that shows it | evidently intended | confidence | as-written member | corrected member |
|---|---|---|---|---|---|---|
| _Mino_MCP_TRAE/Assets/Scripts/DialogueSystem.cs:139-159 | `StartScene` resets `currentLineIndex` to 0 without stopping the typing coroutine or clearing `isTyping`. Its advance then calls `CompleteTyping`, which reads line `-1` and throws. `isTyping` stays true at index 0, so every later advance, skip or start throws the same way. | Any start while a line is typing. One reachable case: after a choice, the next scene's first line is typing, and the old choice button, still shown and still selected, is submitted with the Enter key. A mouse click does not trigger it, because the press first runs `Update`'s advance. | Stop the reveal and clear `isTyping` before resetting the cursor, so the new scene's first line is shown. | medium, not executed | `DialogueSystem.StartScene`, `Walkthrough.InterruptedStartWedges`, `Walkthrough.SecondChoiceWedges` | `DialogueSystem.StartSceneCancelling`, `Walkthrough.CancellingStartRecovers` |

=== FILE: characters.dfy ===
/** CharacterManager.cs: character profiles looked up by their identifying
    name, with per-expression portraits and a name colour. */
module Characters {
  import opened Wrappers
  import opened Content
  import Text
  import Index

  /** An RGBA colour, channels in [0, 1]. */
  datatype Color = Color(r: real, g: real, b: real, a: real)

  /** `Color.white`, the colour of a name with no profile. */
  const White: Color := Color(1.0, 1.0, 1.0, 1.0)

  /** `expressions` holds one portrait slot per expression ordinal; a slot
      may be empty (a null sprite). */
  datatype Character = Character(
    characterName: string,
    fullName: string,
    age: int,
    personality: string,
    background: string,
    expressions: seq<Option<Asset>>,
    nameColor: Color)

  function NameKey(c: Character): string {
    c.characterName
  }

  datatype Registry = Registry(characters: seq<Character>, characterDictionary: map<string, Character>)

  /** Start-up: every listed character is entered under its name in list
      order, so for a repeated name the last profile wins. */
  function InitializeCharacters(characters: seq<Character>): (r: Registry)
    ensures r.characters == characters
    ensures r.characterDictionary.Keys == Index.Keys(characters, NameKey)
    ensures forall n :: n in r.characterDictionary ==>
              r.characterDictionary[n] == characters[Index.LastIndex(characters, NameKey, n)]
  {
    Index.LastWinsSpec(characters, NameKey);
    Registry(characters, Index.LastWins(characters, NameKey))
  }

  /** The profile registered under `name`, or null. */
  function GetCharacter(reg: Registry, name: string): (r: Option<Character>)
    ensures r.Some? <==> name in reg.characterDictionary
    ensures r.Some? ==> r.value == reg.characterDictionary[name]
  {
    if name in reg.characterDictionary then Some(reg.characterDictionary[name]) else None
  }

  /** Looking a name up after start-up finds a profile exactly when some
      listed character carries that name, and then the last such one. */
  lemma GetCharacterAfterInit(characters: seq<Character>, name: string)
    ensures var r := GetCharacter(InitializeCharacters(characters), name);
            && (r.Some? <==> exists i :: 0 <= i < |characters| && characters[i].characterName == name)
            && (r.Some? ==>
                  var j := Index.LastIndex(characters, NameKey, name);
                  && 0 <= j && r.value == characters[j] && r.value.characterName == name
                  && forall i :: j < i < |characters| ==> characters[i].characterName != name)
  {
    var reg := InitializeCharacters(characters);
    if exists i :: 0 <= i < |characters| && characters[i].characterName == name {
      var i :| 0 <= i < |characters| && characters[i].characterName == name;
      assert NameKey(characters[i]) == name;
    }
    if name in reg.characterDictionary {
      var j := Index.LastIndex(characters, NameKey, name);
      assert NameKey(characters[j]) == name;
      forall i | j < i < |characters|
        ensures characters[i].characterName != name
      {
        assert NameKey(characters[i]) != name;
      }
    }
  }

  /** The portrait for an expression: the slot at the expression's ordinal when
      the character exists and has that many slots, null otherwise. The slot
      is read only when it is in bounds. */
  function GetExpressionSprite(reg: Registry, name: string, e: Expression): (r: Option<Asset>)
    ensures r.Some? ==> name in reg.characterDictionary
                        && Ordinal(e) < |reg.characterDictionary[name].expressions|
                        && reg.characterDictionary[name].expressions[Ordinal(e)] == r
    ensures name in reg.characterDictionary && Ordinal(e) < |reg.characterDictionary[name].expressions| ==>
              r == reg.characterDictionary[name].expressions[Ordinal(e)]
  {
    match GetCharacter(reg, name)
    case Some(c) => if |c.expressions| > Ordinal(e) then c.expressions[Ordinal(e)] else None
    case None => None
  }

  /** The character's name colour, white for an unknown name. */
  function GetNameColor(reg: Registry, name: string): (r: Color)
    ensures name !in reg.characterDictionary ==> r == White
    ensures name in reg.characterDictionary ==> r == reg.characterDictionary[name].nameColor
  {
    match GetCharacter(reg, name)
    case Some(c) => c.nameColor
    case None => White
  }

  /** The fixed text shown for an unknown character. */
  const InfoNotFound: string := "角色信息不存在"

  /** The four-line profile text: name, age, personality, background. */
  function ProfileText(c: Character): string {
    "姓名: " + c.fullName + "\n年龄: " + Text.IntToDecimal(c.age)
      + "\n性格: " + c.personality + "\n背景: " + c.background
  }

  /** The profile text of a registered character, or the fixed "not found"
      text; the two can never be confused. */
  function GetCharacterInfo(reg: Registry, name: string): (r: string)
    ensures name in reg.characterDictionary ==> Text.StartsWith(r, "姓名: " + reg.characterDictionary[name].fullName + "\n")
    ensures r == InfoNotFound <==> name !in reg.characterDictionary
  {
    match GetCharacter(reg, name)
    case Some(c) =>
      var r := ProfileText(c);
      assert r[0] == '姓' != InfoNotFound[0];
      assert r[..|"姓名: " + c.fullName + "\n"|] == "姓名: " + c.fullName + "\n";
      r
    case None => InfoNotFound
  }

  /** `new List<string>(characterDictionary.Keys)`: every registered name
      exactly once. The dictionary's enumeration order is unspecified, so
      the order here is an arbitrary one. */
  method GetAllCharacterNames(reg: Registry) returns (names: seq<string>)
    ensures forall n :: n in names <==> n in reg.characterDictionary
    ensures forall i, j :: 0 <= i < j < |names| ==> names[i] != names[j]
    ensures |names| == |reg.characterDictionary|
  {
    names := [];
    var left := reg.characterDictionary.Keys;
    while left != {}
      invariant left <= reg.characterDictionary.Keys
      invariant forall n :: n in names <==> n in reg.characterDictionary.Keys - left
      invariant forall i, j :: 0 <= i < j < |names| ==> names[i] != names[j]
      invariant |names| + |left| == |reg.characterDictionary.Keys|
      decreases left
    {
      var n :| n in left;
      assert n !in names;
      names := names + [n];
      left := left - {n};
    }
  }
}

=== FILE: content.dfy ===
/** The authored content types of the dialogue framework: a line of dialogue,
    a branch choice and a scene (DialogueSystem.cs), and the portrait
    expressions. Sprites and audio clips are engine objects the logic only
    passes around; they are opaque handles here, and `None` stands for a
    missing (null) one. */
module Content {
  import opened Wrappers

  /** An engine asset reference (sprite or audio clip), compared by identity. */
  datatype Asset = Asset(handle: nat)

  /** The five declared expressions, in declaration order. */
  datatype Expression = Normal | Happy | Sad | Angry | Surprised

  /** `(int)expression`: the position of the value in the declaration. */
  function Ordinal(e: Expression): (n: nat)
    ensures n < 5
    ensures e == Normal <==> n == 0
  {
    match e
    case Normal => 0
    case Happy => 1
    case Sad => 2
    case Angry => 3
    case Surprised => 4
  }

  /** Distinct expressions index distinct portrait slots. */
  lemma OrdinalInjective(a: Expression, b: Expression)
    requires Ordinal(a) == Ordinal(b)
    ensures a == b
  {
  }

  datatype DialogueLine = DialogueLine(
    characterName: string,
    dialogueText: string,
    characterSprite: Option<Asset>,
    voiceClip: Option<Asset>,
    expression: Expression)

  /** A branch option. `effects` lists the entries of the effect dictionary in
      enumeration order; a null dictionary is the empty list. */
  datatype Choice = Choice(
    choiceText: string,
    nextScene: string,
    effects: seq<(string, int)>)

  datatype SceneData = SceneData(
    sceneId: string,
    dialogueLines: seq<DialogueLine>,
    choices: seq<Choice>,
    backgroundMusic: Option<Asset>,
    backgroundImage: Option<Asset>)

  /** The key both the scene list and the scene dictionary are organised by. */
  function SceneKey(s: SceneData): string {
    s.sceneId
  }
}

=== FILE: dialogue.dfy ===
/** DialogueSystem.cs: the cursor that walks a scene's lines, the typing
    reveal of each line, the choice panel, and the application of a chosen
    branch's effects before the next scene starts.

    The reveal coroutine is modelled by its progress: `Reveal(text, count)`
    means `count` characters of `text` have been appended to the visible text.
    `StartCoroutine` runs the coroutine up to its first wait at once, so a
    line with text is shown with one character visible and typing in progress,
    and a line with empty text finishes its reveal immediately. Each later
    resumption after the per-character wait is one `Tick`. */
module DialogueSystem {
  import opened Wrappers
  import opened Content
  import Text
  import SceneStore
  import GameState

  /** The typing coroutine while it runs. */
  datatype Reveal = Reveal(text: string, count: nat)

  /** An exception that aborts the current handler. */
  datatype Fault =
    | IndexOutOfRange(index: int)   // dialogueLines[currentLineIndex - 1] out of range
    | NullScene                     // currentScene dereferenced while null

  /** The dialogue system's state and what it shows.
      `scene`, `lineIndex` and `typing` are currentScene, currentLineIndex and
      isTyping; `progress` is the running typing coroutine; `text` and `speaker`
      are the dialogue and name labels; `portrait` is the sprite of the
      character image while it is shown; `panelOpen` and `choicesOpen` are the
      active states of the dialogue and choice panels; `offered` are the
      choices behind the buttons on the choice panel. */
  datatype Cursor = Cursor(
    scene: Option<SceneData>,
    lineIndex: nat,
    typing: bool,
    progress: Option<Reveal>,
    text: string,
    speaker: string,
    portrait: Option<Asset>,
    panelOpen: bool,
    choicesOpen: bool,
    offered: seq<Choice>)

  /** The state after a handler returns or throws: everything assigned before
      the throw stays assigned. */
  datatype Outcome = Outcome(state: Cursor, fault: Option<Fault>)

  /** Before any scene has started. */
  function Initial(): Cursor {
    Cursor(None, 0, false, None, "", "", None, false, false, [])
  }

  /** The states the handlers keep when used as the engine intends: the
      reveal runs exactly while typing and always shows a prefix of the line
      just displayed; the index never passes the line count; once a line has
      been displayed, the labels show its speaker and portrait, and when no
      reveal is running, its full text. */
  predicate Inv(c: Cursor) {
    && (c.progress.Some? <==> c.typing)
    && match c.scene
       case None => !c.typing && c.lineIndex == 0
       case Some(s) =>
         && c.lineIndex <= |s.dialogueLines|
         && (c.typing ==> c.lineIndex >= 1)
         && (c.lineIndex >= 1 ==> Shows(c, s.dialogueLines[c.lineIndex - 1]))
  }

  /** The labels show `line`: its speaker and portrait always, and its text
      in full or, while the reveal runs, the revealed prefix of it. */
  predicate Shows(c: Cursor, line: DialogueLine) {
    && c.speaker == line.characterName
    && c.portrait == line.characterSprite
    && match c.progress
       case None => c.text == line.dialogueText
       case Some(rv) =>
         && rv.text == line.dialogueText
         && 1 <= rv.count <= |rv.text|
         && c.text == rv.text[..rv.count]
  }

  lemma InitialInv()
    ensures Inv(Initial())
  {
  }

  /** DisplayDialogueLine, up to the reveal's first wait: the name label and
      portrait switch to the line, the text label is cleared and the first
      character (if any) appended. */
  function ShowLine(c: Cursor, line: DialogueLine): (r: Cursor)
    ensures r.speaker == line.characterName && r.portrait == line.characterSprite
    ensures r.typing <==> |line.dialogueText| > 0
    ensures Text.StartsWith(line.dialogueText, r.text)
    ensures Shows(r, line)
    ensures r.scene == c.scene && r.lineIndex == c.lineIndex && r.offered == c.offered
  {
    var c1 := c.(speaker := line.characterName, portrait := line.characterSprite);
    if |line.dialogueText| == 0 then
      c1.(typing := false, progress := None, text := "")
    else
      c1.(typing := true, progress := Some(Reveal(line.dialogueText, 1)), text := line.dialogueText[..1])
  }

  /** One resumption of the typing coroutine: append the next character, or,
      after the last one, end the reveal. */
  function Tick(c: Cursor): (r: Cursor)
    ensures c.progress.None? ==> r == c
    ensures c.progress.Some? && c.progress.value.count < |c.progress.value.text| ==>
              && r.text == c.text + [c.progress.value.text[c.progress.value.count]]
              && r.typing == c.typing
              && r.progress == Some(c.progress.value.(count := c.progress.value.count + 1))
    ensures c.progress.Some? && c.progress.value.count >= |c.progress.value.text| ==>
              !r.typing && r.progress.None? && r.text == c.text
    ensures r.lineIndex == c.lineIndex && r.scene == c.scene
    ensures Inv(c) ==> Inv(r)
    ensures Inv(c) && c.typing && !r.typing ==> r.text == c.progress.value.text
  {
    match c.progress
    case None => c
    case Some(rv) =>
      if rv.count < |rv.text| then
        var r := c.(text := c.text + [rv.text[rv.count]], progress := Some(rv.(count := rv.count + 1)));
        assert Inv(c) ==> r.text == rv.text[..rv.count + 1] by {
          if Inv(c) {
            assert rv.text[..rv.count + 1] == rv.text[..rv.count] + [rv.text[rv.count]];
          }
        }
        r
      else
        c.(typing := false, progress := None)
  }

  /** CompleteTyping: stop the reveal and show the whole text of the line
      last displayed, line `lineIndex - 1`; that index is out of range right
      after a scene start. */
  function CompleteTyping(c: Cursor): (r: Outcome)
    ensures r.state.progress.None? && r.state.lineIndex == c.lineIndex && r.state.scene == c.scene
    ensures r.state.offered == c.offered && r.state.choicesOpen == c.choicesOpen
    ensures c.scene.Some? && 1 <= c.lineIndex <= |c.scene.value.dialogueLines| ==>
              && r.fault.None?
              && !r.state.typing
              && r.state.text == c.scene.value.dialogueLines[c.lineIndex - 1].dialogueText
    ensures c.scene.Some? && c.lineIndex == 0 ==>
              r.fault == Some(IndexOutOfRange(-1)) && r.state.typing == c.typing && r.state.text == c.text
    ensures c.scene.None? ==> r.fault == Some(NullScene)
    ensures Inv(c) && c.typing ==> Inv(r.state) && r.fault.None?
  {
    var c1 := c.(progress := None);
    match c.scene
    case None => Outcome(c1, Some(NullScene))
    case Some(s) =>
      if 1 <= c.lineIndex <= |s.dialogueLines| then
        Outcome(c1.(text := s.dialogueLines[c.lineIndex - 1].dialogueText, typing := false), None)
      else
        Outcome(c1, Some(IndexOutOfRange(c.lineIndex - 1)))
  }

  /** ShowChoices: fill the choice panel with the scene's choices; a scene
      without choices ends with nothing changed. */
  function ShowChoices(c: Cursor, s: SceneData): (r: Cursor)
    ensures |s.choices| > 0 ==> r.choicesOpen && r.offered == s.choices
    ensures |s.choices| == 0 ==> r == c
    ensures r.lineIndex == c.lineIndex && r.typing == c.typing && r.progress == c.progress
    ensures r.text == c.text && r.speaker == c.speaker && r.portrait == c.portrait && r.scene == c.scene
  {
    if |s.choices| > 0 then c.(choicesOpen := true, offered := s.choices) else c
  }

  /** One user advance. Without a scene nothing happens. While a line is
      being typed the advance only completes it. Otherwise the line at the
      cursor is displayed and the cursor moves past it, or, at the end of the
      scene, the choices are offered and the cursor stays. */
  function DisplayNextLine(c: Cursor): (r: Outcome)
    ensures c.scene.None? ==> r == Outcome(c, None)
    ensures c.scene.Some? && c.typing && 1 <= c.lineIndex <= |c.scene.value.dialogueLines| ==>
              && r.fault.None?
              && r.state.lineIndex == c.lineIndex
              && !r.state.typing
              && r.state.text == c.scene.value.dialogueLines[c.lineIndex - 1].dialogueText
    ensures c.scene.Some? && !c.typing && c.lineIndex < |c.scene.value.dialogueLines| ==>
              && r.fault.None?
              && r.state.lineIndex == c.lineIndex + 1
              && Shows(r.state, c.scene.value.dialogueLines[c.lineIndex])
              && (r.state.typing <==> |c.scene.value.dialogueLines[c.lineIndex].dialogueText| > 0)
    ensures c.scene.Some? && !c.typing && c.lineIndex >= |c.scene.value.dialogueLines| ==>
              && r.fault.None?
              && r.state.lineIndex == c.lineIndex
              && r.state.text == c.text
              && (|c.scene.value.choices| > 0 ==> r.state.choicesOpen && r.state.offered == c.scene.value.choices)
              && (|c.scene.value.choices| == 0 ==> r.state == c)
    ensures c.scene.Some? && (c.typing || c.lineIndex < |c.scene.value.dialogueLines|) ==>
              r.state.offered == c.offered && r.state.choicesOpen == c.choicesOpen
    ensures r.state.scene == c.scene
    ensures Inv(c) ==> Inv(r.state) && r.fault.None?
  {
    match c.scene
    case None => Outcome(c, None)
    case Some(s) =>
      if c.typing then CompleteTyping(c)
      else if c.lineIndex < |s.dialogueLines| then
        Outcome(ShowLine(c, s.dialogueLines[c.lineIndex]).(lineIndex := c.lineIndex + 1), None)
      else
        Outcome(ShowChoices(c, s), None)
  }

  /** SkipCurrentDialogue: complete the reveal while typing, advance
      otherwise (the skip sound is presentation only). */
  function SkipCurrentDialogue(c: Cursor): (r: Outcome)
    ensures Inv(c) ==> Inv(r.state) && r.fault.None?
  {
    if c.typing then CompleteTyping(c) else DisplayNextLine(c)
  }

  /** In every state the handlers keep, skipping is advancing. The two differ
      only when typing without a scene, which no handler produces. */
  lemma SkipIsAdvance(c: Cursor)
    requires Inv(c)
    ensures SkipCurrentDialogue(c) == DisplayNextLine(c)
  {
  }

  /** StartScene: an unknown id is reported and changes nothing; a known scene
      becomes current with the cursor at its first line, and one advance
      follows. The running reveal is not stopped first, so a start while a
      line is being typed makes that advance complete line -1, which throws. */
  function StartScene(c: Cursor, store: SceneStore.Store, id: string): (r: Outcome)
    ensures SceneStore.GetScene(store, id).None? ==> r == Outcome(c, None)
    ensures SceneStore.GetScene(store, id).Some? ==>
              && r.state.scene == SceneStore.GetScene(store, id)
              && r.state.panelOpen
    ensures SceneStore.GetScene(store, id).Some? && !c.typing ==>
              var lines := store.sceneDictionary[id].dialogueLines;
              && r.fault.None?
              && (|lines| > 0 ==> r.state.lineIndex == 1 && Shows(r.state, lines[0])
                                  && (r.state.typing <==> |lines[0].dialogueText| > 0)
                                  && r.state.offered == c.offered && r.state.choicesOpen == c.choicesOpen)
              && (|lines| == 0 ==> r.state.lineIndex == 0 && !r.state.typing)
    ensures SceneStore.GetScene(store, id).Some? && c.typing ==>
              && r.fault == Some(IndexOutOfRange(-1))
              && r.state.typing && r.state.lineIndex == 0 && r.state.progress.None?
    ensures Inv(c) && !c.typing ==> Inv(r.state) && r.fault.None?
  {
    match SceneStore.GetScene(store, id)
    case None => Outcome(c, None)
    case Some(s) => DisplayNextLine(c.(scene := Some(s), lineIndex := 0, panelOpen := true))
  }

  /** A start that stops the running reveal before resetting the cursor, as
      the interrupted-start case evidently needs: it keeps the invariant from
      every state, and it is `StartScene` whenever no reveal is running. */
  function StartSceneCancelling(c: Cursor, store: SceneStore.Store, id: string): (r: Outcome)
    ensures Inv(c) ==> Inv(r.state) && r.fault.None?
    ensures !c.typing && c.progress.None? ==> r == StartScene(c, store, id)
    ensures SceneStore.GetScene(store, id).None? ==> r == Outcome(c, None)
    ensures SceneStore.GetScene(store, id).Some? ==>
              var lines := store.sceneDictionary[id].dialogueLines;
              && r.fault.None?
              && r.state.scene == SceneStore.GetScene(store, id)
              && (|lines| > 0 ==> r.state.lineIndex == 1 && Shows(r.state, lines[0]))
              && (|lines| == 0 ==> r.state.lineIndex == 0 && !r.state.typing)
  {
    match SceneStore.GetScene(store, id)
    case None => Outcome(c, None)
    case Some(s) =>
      DisplayNextLine(c.(scene := Some(s), lineIndex := 0, panelOpen := true, typing := false, progress := None))
  }

  /** `key.StartsWith(prefix)` routes an effect; the target is the key with
      every occurrence of the prefix deleted. */
  const AffectionPrefix: string := "affection_"
  const FlagPrefix: string := "flag_"

  /** One effect entry applied to the game state: an `affection_` key adds its
      value to the named character's affection, otherwise a `flag_` key sets
      the named flag to whether its value is positive, and any other key is
      ignored. */
  function ApplyEffect(g: GameState.State, key: string, value: int): (r: GameState.State)
    ensures Text.StartsWith(key, AffectionPrefix) ==>
              var who := Text.RemoveAll(key, AffectionPrefix);
              && r.flags == g.flags && r.variables == g.variables
              && (who in g.affection ==> GameState.GetAffection(r, who) == GameState.GetAffection(g, who) + value)
              && forall n :: n != who || who !in g.affection ==> GameState.GetAffection(r, n) == GameState.GetAffection(g, n)
    ensures !Text.StartsWith(key, AffectionPrefix) && Text.StartsWith(key, FlagPrefix) ==>
              var flag := Text.RemoveAll(key, FlagPrefix);
              && r.affection == g.affection && r.variables == g.variables
              && (GameState.GetFlag(r, flag) <==> value > 0)
              && forall n :: n != flag ==> GameState.GetFlag(r, n) == GameState.GetFlag(g, n)
    ensures !Text.StartsWith(key, AffectionPrefix) && !Text.StartsWith(key, FlagPrefix) ==> r == g
  {
    if Text.StartsWith(key, AffectionPrefix) then
      GameState.ChangeAffection(g, Text.RemoveAll(key, AffectionPrefix), value)
    else if Text.StartsWith(key, FlagPrefix) then
      GameState.SetFlag(g, Text.RemoveAll(key, FlagPrefix), value > 0)
    else g
  }

  /** The entry with key `key` changes the affection of `name`. */
  predicate RoutesAffection(key: string, name: string) {
    Text.StartsWith(key, AffectionPrefix) && Text.RemoveAll(key, AffectionPrefix) == name
  }

  /** The entry with key `key` sets the flag `name`. */
  predicate RoutesFlag(key: string, name: string) {
    !Text.StartsWith(key, AffectionPrefix) && Text.StartsWith(key, FlagPrefix)
    && Text.RemoveAll(key, FlagPrefix) == name
  }

  /** The total of the values the entries route to `name`'s affection. */
  function AffectionSum(effects: seq<(string, int)>, name: string): (r: int)
    ensures (forall i :: 0 <= i < |effects| ==> !RoutesAffection(effects[i].0, name)) ==> r == 0
    decreases |effects|
  {
    if |effects| == 0 then 0
    else (if RoutesAffection(effects[0].0, name) then effects[0].1 else 0) + AffectionSum(effects[1..], name)
  }

  /** The value the last entry routed to flag `name` sets, if any entry is. */
  function LastFlag(effects: seq<(string, int)>, name: string): (r: Option<bool>)
    ensures r.None? <==> forall i :: 0 <= i < |effects| ==> !RoutesFlag(effects[i].0, name)
    ensures r.Some? ==> exists i :: 0 <= i < |effects| && RoutesFlag(effects[i].0, name)
                                    && r.value == (effects[i].1 > 0)
                                    && forall j :: i < j < |effects| ==> !RoutesFlag(effects[j].0, name)
    decreases |effects|
  {
    if |effects| == 0 then None
    else
      var last := effects[|effects| - 1];
      if RoutesFlag(last.0, name) then Some(last.1 > 0)
      else LastFlag(effects[..|effects| - 1], name)
  }

  /** The effect entries applied one after another, in enumeration order:
      each known character gains the total routed to it, and no variable
      or set of known characters changes. */
  function ApplyEffects(g: GameState.State, effects: seq<(string, int)>): (r: GameState.State)
    ensures r.variables == g.variables
    ensures r.affection.Keys == g.affection.Keys
    ensures forall n :: n in g.affection ==>
              GameState.GetAffection(r, n) == GameState.GetAffection(g, n) + AffectionSum(effects, n)
    ensures forall n :: n !in g.affection ==> GameState.GetAffection(r, n) == 0
    decreases |effects|
  {
    if |effects| == 0 then g
    else ApplyEffects(ApplyEffect(g, effects[0].0, effects[0].1), effects[1..])
  }

  /** Applying a concatenation applies its two parts in turn. */
  lemma {:induction false} ApplyEffectsAppend(g: GameState.State, a: seq<(string, int)>, b: seq<(string, int)>)
    ensures ApplyEffects(g, a + b) == ApplyEffects(ApplyEffects(g, a), b)
    decreases |a|
  {
    if |a| > 0 {
      assert (a + b)[0] == a[0] && (a + b)[1..] == a[1..] + b;
      ApplyEffectsAppend(ApplyEffect(g, a[0].0, a[0].1), a[1..], b);
    } else {
      assert a + b == b;
    }
  }

  /** After the entries, a flag holds the value the last entry routed to it
      set, and keeps its old value when no entry is routed to it. */
  lemma {:induction false} ApplyEffectsFlag(g: GameState.State, effects: seq<(string, int)>, name: string)
    ensures GameState.GetFlag(ApplyEffects(g, effects), name) ==
              match LastFlag(effects, name)
              case Some(v) => v
              case None => GameState.GetFlag(g, name)
    decreases |effects|
  {
    if |effects| > 0 {
      var init := effects[..|effects| - 1];
      var last := effects[|effects| - 1];
      assert effects == init + [last];
      ApplyEffectsAppend(g, init, [last]);
      var h := ApplyEffects(g, init);
      assert ApplyEffects(h, [last]) == ApplyEffects(ApplyEffect(h, last.0, last.1), []);
      ApplyEffectsFlag(g, init, name);
    }
  }

  /** OnChoiceSelected: the chosen branch's effects are applied to the game
      state, then its target scene is started. A missing target keeps the
      applied effects and leaves the cursor where it was. */
  function OnChoiceSelected(c: Cursor, g: GameState.State, store: SceneStore.Store, choice: Choice)
    : (r: (Outcome, GameState.State))
    ensures r.1 == ApplyEffects(g, choice.effects)
    ensures r.0 == StartScene(c, store, choice.nextScene)
    ensures choice.nextScene !in store.sceneDictionary ==> r.0 == Outcome(c, None)
    ensures choice.nextScene in store.sceneDictionary && r.0.fault.None? ==>
              r.0.state.scene == Some(store.sceneDictionary[choice.nextScene])
    ensures Inv(c) && !c.typing ==> Inv(r.0.state) && r.0.fault.None?
  {
    (StartScene(c, store, choice.nextScene), ApplyEffects(g, choice.effects))
  }
}

=== FILE: game_state.dfy ===
/** The session state kept by GameManager.cs: boolean flags, integer variables
    and per-character affection, plus the play-time formatting used by the
    save-slot list. */
module GameState {
  import Text
  import opened Wrappers

  datatype State = State(
    flags: map<string, bool>,
    variables: map<string, int>,
    affection: map<string, int>)

  /** The affection maximum declared in GameConfig.cs; no operation applies it. */
  const MaxAffection: int := 100

  /** The dictionaries as the component is constructed, before start-up. */
  function Empty(): State {
    State(map[], map[], map[])
  }

  /** Start-up defaults: the three heroes at affection 0, 100 money and no
      reputation. Flags and every other entry are left as they were. */
  function InitializeGameData(g: State): (r: State)
    ensures r.flags == g.flags
    ensures r.affection.Keys == g.affection.Keys + {"Alice", "Bob", "Carol"}
    ensures forall n :: n in {"Alice", "Bob", "Carol"} ==> GetAffection(r, n) == 0
    ensures forall n :: n in g.affection && n !in {"Alice", "Bob", "Carol"} ==>
              r.affection[n] == g.affection[n]
    ensures r.variables.Keys == g.variables.Keys + {"money", "reputation"}
    ensures r.variables["money"] == 100 && r.variables["reputation"] == 0
    ensures forall n :: n in g.variables && n !in {"money", "reputation"} ==>
              r.variables[n] == g.variables[n]
  {
    State(
      g.flags,
      g.variables["money" := 100]["reputation" := 0],
      g.affection["Alice" := 0]["Bob" := 0]["Carol" := 0])
  }

  /** `flags[name] = value`. */
  function SetFlag(g: State, name: string, value: bool): (r: State)
    ensures GetFlag(r, name) == value
    ensures forall n :: n != name ==> GetFlag(r, n) == GetFlag(g, n)
    ensures r.variables == g.variables && r.affection == g.affection
  {
    g.(flags := g.flags[name := value])
  }

  /** A flag reads as false until it has been set. */
  predicate GetFlag(g: State, name: string)
    ensures name !in g.flags ==> !GetFlag(g, name)
  {
    name in g.flags && g.flags[name]
  }

  /** Adds `amount` to a character's affection, exactly and without clamping;
      a character that was never initialised is left alone. */
  function ChangeAffection(g: State, name: string, amount: int): (r: State)
    ensures r.flags == g.flags && r.variables == g.variables
    ensures r.affection.Keys == g.affection.Keys
    ensures name in g.affection ==> GetAffection(r, name) == GetAffection(g, name) + amount
    ensures name !in g.affection ==> r == g
    ensures forall n :: n != name ==> GetAffection(r, n) == GetAffection(g, n)
  {
    if name in g.affection then
      g.(affection := g.affection[name := g.affection[name] + amount])
    else g
  }

  /** A character's affection, reading 0 for one never initialised. */
  function GetAffection(g: State, name: string): (r: int)
    ensures name !in g.affection ==> r == 0
  {
    if name in g.affection then g.affection[name] else 0
  }

  // ---------------------------------------------------------------------------
  // Play time

  /** Hours, minutes and seconds of a play time given in whole seconds. */
  function Clock(t: nat): (r: (nat, nat, nat))
    ensures r.1 < 60 && r.2 < 60
    ensures r.0 * 3600 + r.1 * 60 + r.2 == t
  {
    var rem := t % 3600;
    assert t == (t / 3600) * 3600 + rem;
    assert rem == (rem / 60) * 60 + rem % 60;
    SameRemainder(t, t / 3600, rem);
    (t / 3600, rem / 60, t % 60)
  }

  /** Reducing modulo 3600 first does not change the seconds digit. */
  lemma SameRemainder(t: nat, q: nat, rem: nat)
    requires t == q * 3600 + rem && rem < 3600
    ensures t % 60 == rem % 60
  {
    var k := q * 60 + rem / 60;
    assert t == k * 60 + rem % 60;
  }

  /** `hh:mm:ss`, each field with at least two digits. */
  function FormatPlayTime(t: nat): (r: string)
    ensures |r| >= 8
    ensures t < 360000 ==> |r| == 8
    ensures t >= 36000 ==> r[0] != '0'
    ensures r[|r| - 3] == ':' && r[|r| - 6] == ':'
  {
    var c := Clock(t);
    var r := Text.Pad2(c.0) + ":" + Text.Pad2(c.1) + ":" + Text.Pad2(c.2);
    assert |Text.Pad2(c.1)| == 2 && |Text.Pad2(c.2)| == 2;
    r
  }

  /** Splits `hh:mm:ss` at its last two colons; the last two fields have
      exactly two characters. */
  function SplitPlayTime(s: string): (r: Option<(string, string, string)>)
    ensures r.Some? ==> s == r.value.0 + ":" + r.value.1 + ":" + r.value.2
    ensures r.Some? ==> |r.value.0| >= 2 && |r.value.1| == 2 && |r.value.2| == 2
  {
    if |s| < 8 || s[|s| - 3] != ':' || s[|s| - 6] != ':' then None
    else
      var r := (s[..|s| - 6], s[|s| - 5..|s| - 3], s[|s| - 2..]);
      assert s == r.0 + ":" + r.1 + ":" + r.2;
      Some(r)
  }

  /** Reads an `hh:mm:ss` string back into seconds: the reference that pins
      down what `FormatPlayTime` writes. */
  function ParsePlayTime(s: string): (r: Option<nat>)
  {
    match SplitPlayTime(s)
    case None => None
    case Some((hh, mm, ss)) =>
      if !(Text.IsDigits(hh) && Text.IsDigits(mm) && Text.IsDigits(ss)) then None
      else
        var m := Text.DigitsValue(mm);
        var sec := Text.DigitsValue(ss);
        if m < 60 && sec < 60 then Some(Text.DigitsValue(hh) * 3600 + m * 60 + sec) else None
  }

  /** The formatted play time reads back as the same number of seconds. */
  lemma PlayTimeRoundTrip(t: nat)
    ensures ParsePlayTime(FormatPlayTime(t)) == Some(t)
  {
    var c := Clock(t);
    var h, m, sec := Text.Pad2(c.0), Text.Pad2(c.1), Text.Pad2(c.2);
    SplitJoined(h, m, sec);
  }

  /** Splitting undoes joining with colons. */
  lemma SplitJoined(h: string, m: string, sec: string)
    requires |h| >= 2 && |m| == 2 && |sec| == 2
    ensures SplitPlayTime(h + ":" + m + ":" + sec) == Some((h, m, sec))
  {
    var s := h + ":" + m + ":" + sec;
    assert s[..|s| - 6] == h;
    assert s[|s| - 5..|s| - 3] == m;
    assert s[|s| - 2..] == sec;
  }
}

=== FILE: index.dfy ===
/** Building a dictionary from a list with `dict[key(item)] = item` for every
    item in list order, as both registries do at start-up: a later item with
    the same key overwrites an earlier one. */
module Index {

  /** The position of the last item whose key is `k`, or -1 when there is none:
      the reference the dictionary build is measured against. */
  function LastIndex<K(==), V>(items: seq<V>, key: V -> K, k: K): (j: int)
    ensures -1 <= j < |items|
    ensures j >= 0 ==> key(items[j]) == k
    ensures forall i :: j < i < |items| ==> key(items[i]) != k
    decreases |items|
  {
    if |items| == 0 then -1
    else if key(items[|items| - 1]) == k then |items| - 1
    else LastIndex(items[..|items| - 1], key, k)
  }

  /** The set of keys the items carry. */
  function Keys<K(==), V>(items: seq<V>, key: V -> K): set<K> {
    set i | 0 <= i < |items| :: key(items[i])
  }

  /** `foreach (item in items) dict[key(item)] = item;` starting from an empty
      dictionary. */
  function LastWins<K(==), V>(items: seq<V>, key: V -> K): (m: map<K, V>)
    ensures forall i :: 0 <= i < |items| ==> key(items[i]) in m
    ensures forall k :: k in m ==> LastIndex(items, key, k) >= 0
    decreases |items|
  {
    if |items| == 0 then map[]
    else
      var last := items[|items| - 1];
      LastWins(items[..|items| - 1], key)[key(last) := last]
  }

  /** The dictionary's keys are exactly the keys of the list, and each key
      maps to the LAST item carrying it. */
  lemma {:induction false} LastWinsSpec<K, V>(items: seq<V>, key: V -> K)
    ensures LastWins(items, key).Keys == Keys(items, key)
    ensures forall k :: k in LastWins(items, key) ==>
              LastWins(items, key)[k] == items[LastIndex(items, key, k)]
    decreases |items|
  {
    if |items| > 0 {
      var init := items[..|items| - 1];
      LastWinsSpec(init, key);
      var m := LastWins(items, key);
      forall k | k in m
        ensures m[k] == items[LastIndex(items, key, k)]
      {
        if key(items[|items| - 1]) != k {
          assert LastIndex(items, key, k) == LastIndex(init, key, k);
        }
      }
      forall k | k in Keys(items, key)
        ensures k in m
      {
        var i :| 0 <= i < |items| && key(items[i]) == k;
      }
      forall k | k in m
        ensures k in Keys(items, key)
      {
        var j := LastIndex(items, key, k);
        assert key(items[j]) == k;
      }
    }
  }

  /** When no two items share a key, each item is found under its own key. */
  lemma LastWinsUnique<K, V>(items: seq<V>, key: V -> K)
    requires forall i, j :: 0 <= i < j < |items| ==> key(items[i]) != key(items[j])
    ensures forall i :: 0 <= i < |items| ==> LastWins(items, key)[key(items[i])] == items[i]
  {
    LastWinsSpec(items, key);
    forall i | 0 <= i < |items|
      ensures LastWins(items, key)[key(items[i])] == items[i]
    {
      var j := LastIndex(items, key, key(items[i]));
      assert j == i;
    }
  }
}

=== FILE: scene_store.dfy ===
/** SceneDataManager.cs: the authored scenes, kept both as a list (in
    insertion order) and as a dictionary from scene id to scene. */
module SceneStore {
  import opened Wrappers
  import opened Content
  import Text
  import Index

  datatype Store = Store(allScenes: seq<SceneData>, sceneDictionary: map<string, SceneData>)

  /** The ids the list holds: `Index.Keys` with the scene id as key, written
      without the function value so that the store proofs below reason about
      plain field reads. `IdsAreKeys` states that the two sets agree. */
  function Ids(scenes: seq<SceneData>): set<string> {
    set i | 0 <= i < |scenes| :: scenes[i].sceneId
  }

  lemma IdsAreKeys(scenes: seq<SceneData>)
    ensures Ids(scenes) == Index.Keys(scenes, SceneKey)
  {
    forall k | k in Index.Keys(scenes, SceneKey)
      ensures k in Ids(scenes)
    {
      var i :| 0 <= i < |scenes| && SceneKey(scenes[i]) == k;
    }
    forall k | k in Ids(scenes)
      ensures k in Index.Keys(scenes, SceneKey)
    {
      var i :| 0 <= i < |scenes| && scenes[i].sceneId == k;
      assert SceneKey(scenes[i]) == k;
    }
  }

  /** No two listed scenes share an id. */
  predicate UniqueIds(scenes: seq<SceneData>) {
    forall i, j :: 0 <= i < j < |scenes| ==> scenes[i].sceneId != scenes[j].sceneId
  }

  /** List and dictionary agree: ids are unique, the dictionary's keys are
      exactly the listed ids, and each id maps to its listed scene. */
  predicate Valid(st: Store) {
    && UniqueIds(st.allScenes)
    && st.sceneDictionary.Keys == Ids(st.allScenes)
    && forall i :: 0 <= i < |st.allScenes| ==>
         st.sceneDictionary[st.allScenes[i].sceneId] == st.allScenes[i]
  }

  /** Start-up: every listed scene is entered in the dictionary in list order,
      so for a repeated id the last scene wins. An empty list is replaced by
      the built-in demo scenes, entered the same way. */
  function InitializeScenes(allScenes: seq<SceneData>, demo: seq<SceneData>): (r: Store)
    ensures |allScenes| > 0 ==> r.allScenes == allScenes
    ensures |allScenes| == 0 ==> r.allScenes == demo
    ensures r.sceneDictionary.Keys == Ids(r.allScenes)
    ensures forall id :: id in r.sceneDictionary ==>
              r.sceneDictionary[id] == r.allScenes[Index.LastIndex(r.allScenes, SceneKey, id)]
  {
    var scenes := if |allScenes| == 0 then demo else allScenes;
    Index.LastWinsSpec(scenes, SceneKey);
    IdsAreKeys(scenes);
    Store(scenes, Index.LastWins(scenes, SceneKey))
  }

  /** With unique ids the start-up store is consistent. */
  lemma InitializeScenesValid(allScenes: seq<SceneData>, demo: seq<SceneData>)
    requires UniqueIds(if |allScenes| == 0 then demo else allScenes)
    ensures Valid(InitializeScenes(allScenes, demo))
  {
    var scenes := if |allScenes| == 0 then demo else allScenes;
    Index.LastWinsUnique(scenes, SceneKey);
    IdsAreKeys(scenes);
  }

  /** The scene stored under `id`, or null. */
  function GetScene(st: Store, id: string): (r: Option<SceneData>)
    ensures r.Some? <==> id in st.sceneDictionary
    ensures r.Some? ==> r.value == st.sceneDictionary[id]
  {
    if id in st.sceneDictionary then Some(st.sceneDictionary[id]) else None
  }

  /** In a consistent store a found scene is a listed scene with that id. */
  lemma GetSceneListed(st: Store, id: string)
    requires Valid(st) && GetScene(st, id).Some?
    ensures GetScene(st, id).value in st.allScenes && GetScene(st, id).value.sceneId == id
  {
    var p := Located(st, id);
  }

  /** The prefix a scene id of chapter `chapter` starts with. */
  function ChapterPrefix(chapter: int): string {
    "scene_" + Text.IntToDecimal(chapter) + "_"
  }

  /** `xs` keeps some of the elements of `ys`, in their order. */
  predicate IsSubsequence<T(==)>(xs: seq<T>, ys: seq<T>)
    decreases |ys|
  {
    if |xs| == 0 then true
    else if |ys| == 0 then false
    else if xs[0] == ys[0] then IsSubsequence(xs[1..], ys[1..])
    else IsSubsequence(xs, ys[1..])
  }

  /** The listed scenes of a chapter, in list order. */
  function GetScenesByChapter(st: Store, chapter: int): (r: seq<SceneData>)
    ensures forall s :: s in r <==> s in st.allScenes && Text.StartsWith(s.sceneId, ChapterPrefix(chapter))
    ensures IsSubsequence(r, st.allScenes)
    ensures forall s :: multiset(r)[s] ==
              if Text.StartsWith(s.sceneId, ChapterPrefix(chapter)) then multiset(st.allScenes)[s] else 0
  {
    FilterPrefix(st.allScenes, ChapterPrefix(chapter))
  }

  /** `FindAll(scene => scene.sceneId.StartsWith(prefix))`. */
  function FilterPrefix(scenes: seq<SceneData>, prefix: string): (r: seq<SceneData>)
    ensures forall s :: s in r <==> s in scenes && Text.StartsWith(s.sceneId, prefix)
    ensures IsSubsequence(r, scenes)
    ensures |r| <= |scenes|
    ensures forall s :: multiset(r)[s] == if Text.StartsWith(s.sceneId, prefix) then multiset(scenes)[s] else 0
    decreases |scenes|
  {
    if |scenes| == 0 then []
    else
      var rest := FilterPrefix(scenes[1..], prefix);
      FilterCounts(scenes, prefix, rest);
      if Text.StartsWith(scenes[0].sceneId, prefix) then
        assert ([scenes[0]] + rest)[1..] == rest;
        [scenes[0]] + rest
      else
        SubsequenceSkip(rest, scenes);
        rest
  }

  /** One step of the filter: membership and multiplicities of the tail's
      result carry over to the whole list. */
  lemma FilterCounts(scenes: seq<SceneData>, prefix: string, rest: seq<SceneData>)
    requires |scenes| > 0
    requires forall s :: s in rest <==> s in scenes[1..] && Text.StartsWith(s.sceneId, prefix)
    requires forall s :: multiset(rest)[s] ==
               if Text.StartsWith(s.sceneId, prefix) then multiset(scenes[1..])[s] else 0
    ensures var r := if Text.StartsWith(scenes[0].sceneId, prefix) then [scenes[0]] + rest else rest;
            && (forall s :: s in r <==> s in scenes && Text.StartsWith(s.sceneId, prefix))
            && (forall s :: multiset(r)[s] == if Text.StartsWith(s.sceneId, prefix) then multiset(scenes)[s] else 0)
  {
    assert scenes == [scenes[0]] + scenes[1..];
    assert multiset(scenes) == multiset{scenes[0]} + multiset(scenes[1..]);
  }

  /** A subsequence of the tail is a subsequence of the whole. */
  lemma {:induction false} SubsequenceSkip<T>(xs: seq<T>, ys: seq<T>)
    requires |ys| > 0 && IsSubsequence(xs, ys[1..])
    ensures IsSubsequence(xs, ys)
    decreases |ys|, |xs|
  {
    if |xs| > 0 && xs[0] == ys[0] {
      if |ys| > 1 {
        var t := ys[1..];
        if xs[0] == t[0] {
          assert IsSubsequence(xs[1..], t[1..]);
          SubsequenceSkip(xs[1..], t);
          assert t == ys[1..];
        } else {
          assert IsSubsequence(xs, t[1..]);
          SubsequenceSkip(xs, t);
          SubsequenceDrop(xs, t);
        }
      }
    }
  }

  /** Dropping the head of a subsequence keeps it a subsequence. */
  lemma {:induction false} SubsequenceDrop<T>(xs: seq<T>, ys: seq<T>)
    requires |xs| > 0 && IsSubsequence(xs, ys)
    ensures IsSubsequence(xs[1..], ys)
    decreases |ys|, |xs|
  {
    if xs[0] == ys[0] {
      if |xs| > 1 {
        SubsequenceSkip(xs[1..], ys);
      }
    } else {
      SubsequenceDrop(xs, ys[1..]);
      SubsequenceSkip(xs[1..], ys);
    }
  }

  /** No scene id lies in two chapters: the chapter number is recovered from
      the prefix. */
  lemma ChaptersDisjoint(id: string, a: int, b: int)
    requires Text.StartsWith(id, ChapterPrefix(a)) && Text.StartsWith(id, ChapterPrefix(b))
    ensures a == b
  {
    var da := Text.IntToDecimal(a);
    var db := Text.IntToDecimal(b);
    if |da| < |db| {
      PrefixCharAt(id, ChapterPrefix(a), 6 + |da|);
      PrefixCharAt(id, ChapterPrefix(b), 6 + |da|);
      assert false;
    } else if |db| < |da| {
      PrefixCharAt(id, ChapterPrefix(a), 6 + |db|);
      PrefixCharAt(id, ChapterPrefix(b), 6 + |db|);
      assert false;
    } else {
      assert da == ChapterPrefix(a)[6..6 + |da|] == id[6..6 + |da|] == ChapterPrefix(b)[6..6 + |db|] == db;
      Text.IntToDecimalInjective(a, b);
    }
  }

  lemma PrefixCharAt(x: string, p: string, i: int)
    ensures Text.StartsWith(x, p) && 0 <= i < |p| ==> x[i] == p[i]
  {
    if Text.StartsWith(x, p) && 0 <= i < |p| {
      assert x[..|p|][i] == p[i];
    }
  }

  /** Appends a scene whose id is new; a scene with a known id is ignored. */
  function AddScene(st: Store, scene: SceneData): (r: Store)
    ensures scene.sceneId in st.sceneDictionary ==> r == st
    ensures scene.sceneId !in st.sceneDictionary ==>
              && r.allScenes == st.allScenes + [scene]
              && GetScene(r, scene.sceneId) == Some(scene)
              && forall id :: id != scene.sceneId ==> GetScene(r, id) == GetScene(st, id)
    ensures Valid(st) ==> Valid(r)
  {
    if scene.sceneId !in st.sceneDictionary then
      var r := Store(st.allScenes + [scene], st.sceneDictionary[scene.sceneId := scene]);
      assert Valid(st) ==> Ids(r.allScenes) == Ids(st.allScenes) + {scene.sceneId} by {
        if Valid(st) {
          assert forall i :: 0 <= i < |st.allScenes| ==> r.allScenes[i] == st.allScenes[i];
          assert r.allScenes[|st.allScenes|] == scene;
        }
      }
      r
    else st
  }

  /** The position of the first occurrence of `x`. */
  function FirstIndex<T(==)>(xs: seq<T>, x: T): (i: nat)
    requires x in xs
    ensures i < |xs| && xs[i] == x
    ensures forall j :: 0 <= j < i ==> xs[j] != x
    decreases |xs|
  {
    if xs[0] == x then 0 else 1 + FirstIndex(xs[1..], x)
  }

  /** `List.Remove(x)`: deletes the first occurrence of `x`, if any. */
  function RemoveFirst<T(==)>(xs: seq<T>, x: T): (r: seq<T>)
    ensures x !in xs ==> r == xs
    ensures x in xs ==> r == xs[..FirstIndex(xs, x)] + xs[FirstIndex(xs, x) + 1..]
    decreases |xs|
  {
    if |xs| == 0 then xs
    else if xs[0] == x then xs[1..]
    else
      var rest := RemoveFirst(xs[1..], x);
      assert x in xs ==> xs[..FirstIndex(xs, x)] == [xs[0]] + xs[1..][..FirstIndex(xs[1..], x)];
      [xs[0]] + rest
  }

  /** `List.Remove` on any list, consistent or not: one copy of `x` fewer,
      everything else kept in order. */
  lemma RemoveFirstDeletes<T>(xs: seq<T>, x: T)
    ensures multiset(RemoveFirst(xs, x)) == multiset(xs) - multiset{x}
    ensures IsSubsequence(RemoveFirst(xs, x), xs)
  {
    if x in xs {
      var p := FirstIndex(xs, x);
      assert xs == xs[..p] + [x] + xs[p + 1..];
      SubsequenceOfRemoval(xs, p);
    } else {
      SubsequenceRefl(xs);
    }
  }

  /** Removes the scene stored under `id` from the dictionary and its first
      occurrence from the list; an unknown id changes nothing. */
  function RemoveScene(st: Store, id: string): (r: Store)
    ensures GetScene(r, id).None?
    ensures id !in st.sceneDictionary ==> r == st
    ensures forall k :: k != id ==> GetScene(r, k) == GetScene(st, k)
    ensures Valid(st) ==> Valid(r) && Ids(r.allScenes) == Ids(st.allScenes) - {id}
    ensures Valid(st) ==> IsSubsequence(r.allScenes, st.allScenes)
    ensures id in st.sceneDictionary ==>
              && IsSubsequence(r.allScenes, st.allScenes)
              && multiset(r.allScenes) == multiset(st.allScenes) - multiset{st.sceneDictionary[id]}
  {
    if id in st.sceneDictionary then
      RemoveKeepsValid(st, id);
      RemoveFirstDeletes(st.allScenes, st.sceneDictionary[id]);
      Store(RemoveFirst(st.allScenes, st.sceneDictionary[id]), st.sceneDictionary - {id})
    else
      SubsequenceRefl(st.allScenes);
      st
  }

  /** Removing a present id keeps a consistent store consistent. */
  lemma RemoveKeepsValid(st: Store, id: string)
    requires id in st.sceneDictionary
    ensures var r := Store(RemoveFirst(st.allScenes, st.sceneDictionary[id]), st.sceneDictionary - {id});
            Valid(st) ==> Valid(r) && Ids(r.allScenes) == Ids(st.allScenes) - {id}
    ensures Valid(st) ==> IsSubsequence(RemoveFirst(st.allScenes, st.sceneDictionary[id]), st.allScenes)
  {
    if Valid(st) {
      RemoveValid(st, id);
    }
  }

  lemma RemoveValid(st: Store, id: string)
    requires Valid(st) && id in st.sceneDictionary
    ensures var r := Store(RemoveFirst(st.allScenes, st.sceneDictionary[id]), st.sceneDictionary - {id});
            Valid(r) && Ids(r.allScenes) == Ids(st.allScenes) - {id} && IsSubsequence(r.allScenes, st.allScenes)
  {
    var p := Located(st, id);
    DeletedStoreValid(st, id, p, RemoveFirst(st.allScenes, st.sceneDictionary[id]));
  }

  /** Deleting position `p` from the list and its id from the dictionary
      keeps list and dictionary in agreement. */
  lemma DeletedStoreValid(st: Store, id: string, p: nat, rest: seq<SceneData>)
    requires Valid(st) && p < |st.allScenes| && st.allScenes[p].sceneId == id
    requires rest == st.allScenes[..p] + st.allScenes[p + 1..]
    ensures Valid(Store(rest, st.sceneDictionary - {id}))
    ensures Ids(rest) == Ids(st.allScenes) - {id}
    ensures IsSubsequence(rest, st.allScenes)
  {
    DeleteAt(st.allScenes, p);
    RemovedMapping(st.allScenes, st.sceneDictionary, p);
    SubsequenceOfRemoval(st.allScenes, p);
  }

  /** After deleting position `p`, the dictionary without that scene's id
      still maps every remaining scene's id to it. */
  lemma RemovedMapping(all: seq<SceneData>, d: map<string, SceneData>, p: nat)
    requires UniqueIds(all) && p < |all|
    requires forall i :: 0 <= i < |all| ==> all[i].sceneId in d && d[all[i].sceneId] == all[i]
    ensures var rest := all[..p] + all[p + 1..];
            forall i :: 0 <= i < |rest| ==> rest[i].sceneId in d - {all[p].sceneId} && (d - {all[p].sceneId})[rest[i].sceneId] == rest[i]
  {
    var rest := all[..p] + all[p + 1..];
    var id := all[p].sceneId;
    forall i | 0 <= i < |rest|
      ensures rest[i].sceneId in d - {id} && (d - {id})[rest[i].sceneId] == rest[i]
    {
      var j := if i < p then i else i + 1;
      assert rest[i] == all[j];
      assert j != p;
    }
  }

  /** In a consistent store the scene under `id` sits at exactly one position
      of the list. */
  lemma Located(st: Store, id: string) returns (p: nat)
    requires Valid(st) && id in st.sceneDictionary
    ensures p < |st.allScenes| && st.allScenes[p].sceneId == id
    ensures st.sceneDictionary[id] in st.allScenes
    ensures FirstIndex(st.allScenes, st.sceneDictionary[id]) == p
  {
    var all := st.allScenes;
    assert id in Ids(all);
    p :| 0 <= p < |all| && all[p].sceneId == id;
    var f := FirstIndex(all, all[p]);
    assert all[f].sceneId == id;
  }

  /** Deleting the scene at `p` from a list with unique ids removes exactly
      its id. */
  lemma DeleteAt(all: seq<SceneData>, p: nat)
    requires UniqueIds(all) && p < |all|
    ensures var rest := all[..p] + all[p + 1..];
            && UniqueIds(rest)
            && Ids(rest) == Ids(all) - {all[p].sceneId}
  {
    var rest := all[..p] + all[p + 1..];
    assert forall i :: 0 <= i < p ==> rest[i] == all[i];
    assert forall i :: p <= i < |rest| ==> rest[i] == all[i + 1];
    forall k | k in Ids(all) - {all[p].sceneId}
      ensures k in Ids(rest)
    {
      var i :| 0 <= i < |all| && all[i].sceneId == k;
      if i < p {
        assert rest[i] == all[i];
      } else {
        assert rest[i - 1] == all[i];
      }
    }
    forall k | k in Ids(rest)
      ensures k in Ids(all) - {all[p].sceneId}
    {
      var i :| 0 <= i < |rest| && rest[i].sceneId == k;
      if i < p {
        assert rest[i] == all[i];
      } else {
        assert rest[i] == all[i + 1];
      }
    }
  }

  /** Deleting one element leaves a subsequence. */
  lemma {:induction false} SubsequenceOfRemoval<T>(xs: seq<T>, p: nat)
    requires p < |xs|
    ensures IsSubsequence(xs[..p] + xs[p + 1..], xs)
    decreases p
  {
    var r := xs[..p] + xs[p + 1..];
    if p == 0 {
      assert r == xs[1..];
      SubsequenceRefl(xs[1..]);
      SubsequenceSkip(xs[1..], xs);
    } else {
      SubsequenceOfRemoval(xs[1..], p - 1);
      assert r[0] == xs[0];
      assert r[1..] == xs[1..][..p - 1] + xs[1..][p..];
    }
  }

  lemma {:induction false} SubsequenceRefl<T>(xs: seq<T>)
    ensures IsSubsequence(xs, xs)
    decreases |xs|
  {
    if |xs| > 0 {
      SubsequenceRefl(xs[1..]);
    }
  }

  /** Removing twice is removing once. */
  lemma RemoveSceneIdempotent(st: Store, id: string)
    ensures RemoveScene(RemoveScene(st, id), id) == RemoveScene(st, id)
  {
  }

  /** The id of the first choice's target, or null when the scene is missing
      or offers no choice. */
  function GetNextScene(st: Store, id: string): (r: Option<string>)
    ensures r.Some? <==> HasChoices(st, id)
    ensures r.Some? ==> r.value == st.sceneDictionary[id].choices[0].nextScene
  {
    match GetScene(st, id)
    case Some(s) => if |s.choices| > 0 then Some(s.choices[0].nextScene) else None
    case None => None
  }

  /** The scene exists and offers at least one choice. */
  predicate HasChoices(st: Store, id: string)
    ensures HasChoices(st, id) <==> id in st.sceneDictionary && |st.sceneDictionary[id].choices| > 0
  {
    match GetScene(st, id)
    case Some(s) => |s.choices| > 0
    case None => false
  }

  /** A repeated id breaks the list/dictionary agreement at start-up: after
      removing that id, an earlier scene with it is still listed though the
      dictionary no longer knows the id. */
  lemma DuplicateIdOutlivesRemove(a: SceneData, b: SceneData)
    requires a.sceneId == b.sceneId && a != b
    ensures var st := RemoveScene(InitializeScenes([a, b], []), a.sceneId);
            st.allScenes == [a] && a.sceneId !in st.sceneDictionary
  {
    var st := InitializeScenes([a, b], []);
    assert st.sceneDictionary[a.sceneId] == b by {
      assert Index.LastIndex([a, b], SceneKey, a.sceneId) == 1;
    }
    assert FirstIndex([a, b], b) == 1;
  }
}

=== FILE: text.dfy ===
/** String helpers the engine code relies on: ordinal prefix tests,
    `string.Replace(pattern, "")`, and the decimal rendering of integers used by
    string interpolation and the `00` custom number format. */
module Text {

  /** `s.StartsWith(p)`, compared character by character. */
  predicate StartsWith(s: string, p: string) {
    |p| <= |s| && s[..|p|] == p
  }

  /** `pat` occurs somewhere in `s`. */
  predicate Occurs(s: string, pat: string)
    ensures Occurs(s, pat) ==> |pat| <= |s|
    decreases |s|
  {
    StartsWith(s, pat) || (|s| > 0 && Occurs(s[1..], pat))
  }

  /** `s.Replace(pat, "")`: scanning left to right, every non-overlapping
      occurrence of `pat` is deleted; text that a deletion brings together is
      not scanned again. */
  function RemoveAll(s: string, pat: string): (r: string)
    requires |pat| > 0
    ensures |r| <= |s|
    ensures !Occurs(s, pat) ==> r == s
    ensures Occurs(s, pat) ==> |r| <= |s| - |pat|
    decreases |s|
  {
    if |s| < |pat| then s
    else if s[..|pat|] == pat then RemoveAll(s[|pat|..], pat)
    else [s[0]] + RemoveAll(s[1..], pat)
  }

  /** Every occurrence is deleted, not only a leading one. */
  lemma RemoveAllInner()
    ensures RemoveAll("flag_a_flag_b", "flag_") == "a_b"
  {
    var pat := "flag_";
    var k := "flag_a_flag_b";
    assert k[..5] == pat && k[5..] == "a_flag_b";
    assert "a_flag_b"[..5] != pat && "a_flag_b"[1..] == "_flag_b";
    assert "_flag_b"[..5] != pat && "_flag_b"[1..] == "flag_b";
    assert "flag_b"[..5] == pat && "flag_b"[5..] == "b";
  }

  /** Removing a leading `pat` from a key whose remainder never mentions `pat`
      again yields exactly that remainder. */
  lemma {:induction false} RemovePrefixOnly(rest: string, pat: string)
    requires |pat| > 0
    requires !Occurs(rest, pat)
    ensures RemoveAll(pat + rest, pat) == rest
  {
    var s := pat + rest;
    assert s[..|pat|] == pat;
    assert s[|pat|..] == rest;
  }

  // ---------------------------------------------------------------------------
  // Decimal rendering

  predicate IsDigit(c: char) {
    '0' <= c <= '9'
  }

  predicate IsDigits(s: string) {
    forall i :: 0 <= i < |s| ==> IsDigit(s[i])
  }

  function DigitChar(d: nat): (c: char)
    requires d < 10
    ensures IsDigit(c)
  {
    (48 + d) as char
  }

  function DigitValue(c: char): (d: nat)
    requires IsDigit(c)
    ensures d < 10
  {
    c as int - 48
  }

  /** The number a string of decimal digits denotes (leading zeros allowed). */
  function DigitsValue(s: string): nat
    requires IsDigits(s)
    decreases |s|
  {
    if |s| == 0 then 0
    else DigitsValue(s[..|s| - 1]) * 10 + DigitValue(s[|s| - 1])
  }

  /** `n.ToString()` for a non-negative `n`: the shortest decimal rendering. */
  function NatToDecimal(n: nat): (r: string)
    ensures |r| >= 1
    ensures IsDigits(r)
    ensures DigitsValue(r) == n
    ensures r[0] == '0' ==> n == 0
    ensures n < 10 <==> |r| == 1
    ensures n < 100 ==> |r| <= 2
    decreases n
  {
    if n < 10 then
      [DigitChar(n)]
    else
      var hi := NatToDecimal(n / 10);
      var r := hi + [DigitChar(n % 10)];
      assert r[..|r| - 1] == hi;
      r
  }

  /** `i.ToString()`: a minus sign followed by the magnitude for negatives. */
  function IntToDecimal(i: int): (r: string)
    ensures |r| >= 1
    ensures i >= 0 <==> IsDigits(r)
    ensures i >= 0 ==> DigitsValue(r) == i && (r[0] == '0' ==> i == 0)
    ensures i < 0 ==> r[0] == '-' && |r| >= 2 && IsDigits(r[1..]) && DigitsValue(r[1..]) == -i && r[1] != '0'
    ensures forall k :: 0 <= k < |r| ==> r[k] != '_'
  {
    if i < 0 then
      var r := "-" + NatToDecimal(-i);
      assert !IsDigit(r[0]);
      r
    else NatToDecimal(i)
  }

  /** Distinct integers render to distinct strings. */
  lemma IntToDecimalInjective(a: int, b: int)
    requires IntToDecimal(a) == IntToDecimal(b)
    ensures a == b
  {
    var s := IntToDecimal(a);
    if a < 0 {
      assert !IsDigit(s[0]);
      assert b < 0;
      assert s[1..] == NatToDecimal(-a) == NatToDecimal(-b);
    } else {
      assert b >= 0;
    }
  }

  /** The `00` custom format: at least two digits, zero-padded on the left. */
  function Pad2(n: nat): (r: string)
    ensures |r| >= 2
    ensures n < 100 ==> |r| == 2
    ensures n >= 10 ==> r[0] != '0'
    ensures IsDigits(r)
    ensures DigitsValue(r) == n
  {
    if n < 10 then
      var r := ['0', DigitChar(n)];
      assert r[..1] == ['0'];
      assert DigitsValue(['0']) == 0 by {
        assert ['0'][..0] == [];
      }
      r
    else NatToDecimal(n)
  }
}

=== FILE: walkthrough.dfy ===
/** Properties of runs of the dialogue system: how a reveal ends, how a scene
    is read from start to choices, how a branch's effects combine, what an
    interrupted scene start leads to, and the opening of the demo story. */
module Walkthrough {
  import opened Wrappers
  import opened Content
  import Text
  import SceneStore
  import GameState
  import opened DialogueSystem

  // ---------------------------------------------------------------------------
  // Reveal

  /** `n` resumptions of the typing coroutine. */
  function Ticks(c: Cursor, n: nat): Cursor
    decreases n
  {
    if n == 0 then c else Ticks(Tick(c), n - 1)
  }

  /** Left alone, a reveal ends with the whole line visible and typing over,
      one resumption after its last character; the cursor does not move. */
  lemma {:induction false} RevealCompletes(c: Cursor)
    requires Inv(c) && c.typing
    ensures var r := Ticks(c, |c.progress.value.text| - c.progress.value.count + 1);
            && !r.typing && r.text == c.progress.value.text
            && r.lineIndex == c.lineIndex && Inv(r)
    decreases |c.progress.value.text| - c.progress.value.count
  {
    var rv := c.progress.value;
    if rv.count < |rv.text| {
      RevealCompletes(Tick(c));
    }
  }

  // ---------------------------------------------------------------------------
  // Reading a scene

  /** One advance event. */
  function Advance(c: Cursor): Cursor {
    DisplayNextLine(c).state
  }

  /** Advancing until the current line is fully visible. */
  function Finish(c: Cursor): Cursor {
    if c.typing then Advance(c) else c
  }

  /** Finish the current line, then advance past it. */
  function Step(c: Cursor): Cursor {
    Advance(Finish(c))
  }

  function Steps(c: Cursor, n: nat): Cursor
    decreases n
  {
    if n == 0 then c else Steps(Step(c), n - 1)
  }

  /** What a line says: speaker and text. */
  function Said(line: DialogueLine): (string, string) {
    (line.characterName, line.dialogueText)
  }

  function SaidAll(lines: seq<DialogueLine>): seq<(string, string)>
    decreases |lines|
  {
    if |lines| == 0 then [] else [Said(lines[0])] + SaidAll(lines[1..])
  }

  /** The speaker and full text visible at each of `n` steps. */
  function Transcript(c: Cursor, n: nat): seq<(string, string)>
    decreases n
  {
    if n == 0 then [] else [Heard(c)] + Transcript(Step(c), n - 1)
  }

  /** The speaker and full text visible once the current line is finished. */
  function Heard(c: Cursor): (string, string) {
    (Finish(c).speaker, Finish(c).text)
  }

  /** One step from a displayed line: the line is seen in full, then the
      next one is displayed, or after the last line the choices are
      offered. */
  lemma StepFromLine(c: Cursor, s: SceneData)
    requires Inv(c) && c.scene == Some(s) && 1 <= c.lineIndex <= |s.dialogueLines|
    ensures Heard(c) == Said(s.dialogueLines[c.lineIndex - 1])
    ensures Inv(Step(c)) && Step(c).scene == c.scene
    ensures c.lineIndex < |s.dialogueLines| ==>
              && Step(c).lineIndex == c.lineIndex + 1
              && Step(c).offered == c.offered && Step(c).choicesOpen == c.choicesOpen
    ensures c.lineIndex == |s.dialogueLines| ==>
              && Step(c).lineIndex == |s.dialogueLines|
              && (|s.choices| > 0 ==> Step(c).choicesOpen && Step(c).offered == s.choices)
              && (|s.choices| == 0 ==> Step(c).offered == c.offered)
  {
    var f := Finish(c);
    assert Inv(f) && !f.typing && f.lineIndex == c.lineIndex && f.scene == c.scene;
    assert f.offered == c.offered && f.choicesOpen == c.choicesOpen;
  }

  /** From a displayed line, `n` steps show that line and the following ones
      in order, each in full. */
  lemma ReadTranscript(c: Cursor, s: SceneData, n: nat)
    requires Inv(c) && c.scene == Some(s)
    requires 1 <= c.lineIndex && c.lineIndex - 1 + n <= |s.dialogueLines|
    ensures Transcript(c, n) == SaidAll(s.dialogueLines[c.lineIndex - 1..c.lineIndex - 1 + n])
  {
    var window := s.dialogueLines[c.lineIndex - 1..c.lineIndex - 1 + n];
    TranscriptLength(c, n);
    SaidAllLength(window);
    forall k | 0 <= k < n
      ensures Transcript(c, n)[k] == SaidAll(window)[k]
    {
      TranscriptAt(c, n, k);
      SaidAllAt(window, k);
      HeardAfter(c, s, k);
    }
  }

  /** The line heard at the `k`-th step is the `k`-th line from the start. */
  lemma HeardAfter(c: Cursor, s: SceneData, k: nat)
    requires Inv(c) && c.scene == Some(s)
    requires 1 <= c.lineIndex && c.lineIndex + k <= |s.dialogueLines|
    ensures Heard(Steps(c, k)) == Said(s.dialogueLines[c.lineIndex - 1 + k])
  {
    ReadSteps(c, s, k);
    StepFromLine(Steps(c, k), s);
  }

  lemma {:induction false} TranscriptLength(c: Cursor, n: nat)
    ensures |Transcript(c, n)| == n
    decreases n
  {
    if n > 0 {
      TranscriptLength(Step(c), n - 1);
    }
  }

  /** The `k`-th entry of a transcript is what is heard after `k` steps. */
  lemma {:induction false} TranscriptAt(c: Cursor, n: nat, k: nat)
    requires k < n
    ensures k < |Transcript(c, n)| && Transcript(c, n)[k] == Heard(Steps(c, k))
    decreases k
  {
    if k > 0 {
      TranscriptAt(Step(c), n - 1, k - 1);
    }
  }

  lemma {:induction false} SaidAllLength(lines: seq<DialogueLine>)
    ensures |SaidAll(lines)| == |lines|
    decreases |lines|
  {
    if |lines| > 0 {
      SaidAllLength(lines[1..]);
    }
  }

  lemma {:induction false} SaidAllAt(lines: seq<DialogueLine>, k: nat)
    requires k < |lines|
    ensures k < |SaidAll(lines)| && SaidAll(lines)[k] == Said(lines[k])
    decreases k
  {
    if k > 0 {
      SaidAllAt(lines[1..], k - 1);
    }
  }

  /** Where `n` steps from a displayed line leave the cursor: `n` lines on,
      or, when the last step starts at the final line, at the end of the scene
      with its choices offered. */
  lemma {:induction false} ReadSteps(c: Cursor, s: SceneData, n: nat)
    requires Inv(c) && c.scene == Some(s)
    requires 1 <= c.lineIndex && c.lineIndex - 1 + n <= |s.dialogueLines|
    ensures var f := Steps(c, n);
            && Inv(f) && f.scene == c.scene
            && (c.lineIndex + n <= |s.dialogueLines| ==>
                  f.lineIndex == c.lineIndex + n && f.offered == c.offered && f.choicesOpen == c.choicesOpen)
            && (c.lineIndex + n == |s.dialogueLines| + 1 ==>
                  && f.lineIndex == |s.dialogueLines|
                  && (|s.choices| > 0 ==> f.choicesOpen && f.offered == s.choices)
                  && (|s.choices| == 0 ==> f.offered == c.offered))
    decreases n
  {
    if n > 0 {
      StepFromLine(c, s);
      var d := Step(c);
      assert Steps(c, n) == Steps(d, n - 1);
      if c.lineIndex < |s.dialogueLines| {
        ReadSteps(d, s, n - 1);
      }
    }
  }

  /** Starting a scene and reading it: every line is seen exactly once, in
      order, and after the last one the scene's choices are offered if it has
      any; a scene without lines offers them at once. */
  lemma SceneRun(c: Cursor, store: SceneStore.Store, id: string)
    requires Inv(c) && !c.typing && id in store.sceneDictionary
    ensures var s := store.sceneDictionary[id];
            var c1 := StartScene(c, store, id).state;
            && Inv(c1)
            && (|s.dialogueLines| > 0 ==>
                  && Transcript(c1, |s.dialogueLines|) == SaidAll(s.dialogueLines)
                  && Steps(c1, |s.dialogueLines|).lineIndex == |s.dialogueLines|
                  && (|s.choices| > 0 ==>
                        Steps(c1, |s.dialogueLines|).choicesOpen && Steps(c1, |s.dialogueLines|).offered == s.choices))
            && (|s.dialogueLines| == 0 && |s.choices| > 0 ==> c1.choicesOpen && c1.offered == s.choices)
  {
    var s := store.sceneDictionary[id];
    var c1 := StartScene(c, store, id).state;
    if |s.dialogueLines| > 0 {
      ReadTranscript(c1, s, |s.dialogueLines|);
      ReadSteps(c1, s, |s.dialogueLines|);
      assert s.dialogueLines[0..|s.dialogueLines|] == s.dialogueLines;
    }
  }

  // ---------------------------------------------------------------------------
  // Branch effects

  /** An affection effect and a flag effect on plain names land both,
      whichever is enumerated first. */
  lemma EffectOrderIrrelevant(g: GameState.State, who: string, flag: string, delta: int, v: int)
    requires !Text.Occurs(who, AffectionPrefix) && !Text.Occurs(flag, FlagPrefix)
    requires who in g.affection
    ensures var ab := ApplyEffects(g, [(AffectionPrefix + who, delta), (FlagPrefix + flag, v)]);
            var ba := ApplyEffects(g, [(FlagPrefix + flag, v), (AffectionPrefix + who, delta)]);
            && ab == ba
            && GameState.GetAffection(ab, who) == GameState.GetAffection(g, who) + delta
            && (GameState.GetFlag(ab, flag) <==> v > 0)
  {
    var ak := AffectionPrefix + who;
    var fk := FlagPrefix + flag;
    AffectionKey(g, who, delta);
    FlagKey(g, flag, v);
    AffectionKey(ApplyEffect(g, fk, v), who, delta);
    FlagKey(ApplyEffect(g, ak, delta), flag, v);
    TwoEffects(g, (ak, delta), (fk, v));
    TwoEffects(g, (fk, v), (ak, delta));
  }

  /** Order does matter when two keys route to the same flag: `Replace`
      deletes every `flag_`, so `flag_a` and `flag_flag_a` both set `a`, and
      the entry enumerated last decides it. */
  lemma FlagOrderMatters(g: GameState.State)
    ensures !GameState.GetFlag(ApplyEffects(g, [("flag_a", 1), ("flag_flag_a", 0)]), "a")
    ensures GameState.GetFlag(ApplyEffects(g, [("flag_flag_a", 0), ("flag_a", 1)]), "a")
  {
    assert !Text.Occurs("a", FlagPrefix);
    FlagKey(g, "a", 1);
    DoubledFlagKey(GameState.SetFlag(g, "a", true), 0);
    TwoEffects(g, ("flag_a", 1), ("flag_flag_a", 0));
    DoubledFlagKey(g, 0);
    FlagKey(GameState.SetFlag(g, "a", false), "a", 1);
    TwoEffects(g, ("flag_flag_a", 0), ("flag_a", 1));
  }

  /** `flag_flag_a` names the flag `a`: both occurrences are deleted. */
  lemma DoubledFlagKey(g: GameState.State, v: int)
    ensures ApplyEffect(g, "flag_flag_a", v) == GameState.SetFlag(g, "a", v > 0)
  {
    var k := "flag_flag_a";
    assert k[..5] == FlagPrefix && k[5..] == "flag_a";
    assert k[0] == 'f' != AffectionPrefix[0];
    assert !Text.Occurs("a", FlagPrefix);
    Text.RemovePrefixOnly("a", FlagPrefix);
    assert Text.RemoveAll(k, FlagPrefix) == "a";
  }

  /** An `affection_` key on a plain name changes exactly that character. */
  lemma AffectionKey(g: GameState.State, who: string, delta: int)
    requires !Text.Occurs(who, AffectionPrefix)
    ensures ApplyEffect(g, AffectionPrefix + who, delta) == GameState.ChangeAffection(g, who, delta)
  {
    Text.RemovePrefixOnly(who, AffectionPrefix);
    assert (AffectionPrefix + who)[..|AffectionPrefix|] == AffectionPrefix;
  }

  /** A `flag_` key on a plain name sets exactly that flag. */
  lemma FlagKey(g: GameState.State, flag: string, v: int)
    requires !Text.Occurs(flag, FlagPrefix)
    ensures ApplyEffect(g, FlagPrefix + flag, v) == GameState.SetFlag(g, flag, v > 0)
  {
    var fk := FlagPrefix + flag;
    Text.RemovePrefixOnly(flag, FlagPrefix);
    assert fk[..|FlagPrefix|] == FlagPrefix;
    assert fk[0] == 'f' != AffectionPrefix[0];
  }

  lemma TwoEffects(g: GameState.State, e1: (string, int), e2: (string, int))
    ensures ApplyEffects(g, [e1, e2]) == ApplyEffect(ApplyEffect(g, e1.0, e1.1), e2.0, e2.1)
  {
    var es := [e1, e2];
    var g1 := ApplyEffect(g, e1.0, e1.1);
    assert es[1..] == [e2];
    assert ApplyEffects(g, es) == ApplyEffects(g1, [e2]);
    assert [e2][1..] == [];
    assert ApplyEffects(g1, [e2]) == ApplyEffects(ApplyEffect(g1, e2.0, e2.1), []);
  }

  /** `Replace` deletes every occurrence of the prefix, not only the leading
      one: the key `flag_a_flag_b` sets the flag `a_b`. */
  lemma ReplaceDeletesInnerPrefix(g: GameState.State)
    ensures GameState.GetFlag(ApplyEffect(g, "flag_a_flag_b", 1), "a_b")
    ensures !GameState.GetFlag(ApplyEffect(g, "flag_a_flag_b", 1), "a_flag_b") <==> !GameState.GetFlag(g, "a_flag_b")
  {
    Text.RemoveAllInner();
    assert Text.StartsWith("flag_a_flag_b", FlagPrefix);
    assert !Text.StartsWith("flag_a_flag_b", AffectionPrefix) by {
      assert "flag_a_flag_b"[0] != AffectionPrefix[0];
    }
  }

  // ---------------------------------------------------------------------------
  // Interrupted scene start

  /** A scene is current, typing is set and the cursor is at 0: the state an
      interrupted `StartScene` leaves behind. */
  predicate Wedged(c: Cursor) {
    c.scene.Some? && c.typing && c.lineIndex == 0
  }

  /** Starting a known scene while a line is being typed throws, and the
      state it leaves can never be left again: every advance, skip, reveal
      resumption or further start of a known scene throws or does nothing. */
  lemma InterruptedStartWedges(c: Cursor, store: SceneStore.Store, id: string, id2: string)
    requires c.typing && id in store.sceneDictionary
    ensures var w := StartScene(c, store, id);
            && w.fault == Some(IndexOutOfRange(-1))
            && Wedged(w.state)
            && DisplayNextLine(w.state).fault.Some? && Wedged(DisplayNextLine(w.state).state)
            && SkipCurrentDialogue(w.state).fault.Some? && Wedged(SkipCurrentDialogue(w.state).state)
            && Wedged(Tick(w.state))
            && Wedged(StartScene(w.state, store, id2).state)
  {
  }

  /** The same start with the reveal cancelled first succeeds from every state
      the handlers keep. */
  lemma CancellingStartRecovers(c: Cursor, store: SceneStore.Store, id: string)
    requires Inv(c) && c.typing && id in store.sceneDictionary
    ensures StartSceneCancelling(c, store, id).fault.None?
    ensures !Wedged(StartSceneCancelling(c, store, id).state)
  {
  }

  /** Nothing closes the choice panel: after a choice starts a scene whose
      first line has text, the old buttons are still offered while that line
      is typed. Submitting one of them from the keyboard (the Enter key on the
      button that is still selected) reaches `OnChoiceSelected` with no
      advance in between, since `Update` reacts only to the mouse button and
      Space; if its target exists, the start throws and wedges the dialogue. */
  lemma SecondChoiceWedges(c: Cursor, g: GameState.State, store: SceneStore.Store, first: Choice, second: Choice)
    requires Inv(c) && !c.typing && c.choicesOpen && second in c.offered
    requires first.nextScene in store.sceneDictionary && second.nextScene in store.sceneDictionary
    requires |store.sceneDictionary[first.nextScene].dialogueLines| > 0
    requires |store.sceneDictionary[first.nextScene].dialogueLines[0].dialogueText| > 0
    ensures var (o, g2) := OnChoiceSelected(c, g, store, first);
            && o.fault.None? && o.state.choicesOpen && o.state.offered == c.offered && o.state.typing
            && OnChoiceSelected(o.state, g2, store, second).0.fault == Some(IndexOutOfRange(-1))
            && Wedged(OnChoiceSelected(o.state, g2, store, second).0.state)
  {
  }

  /** A mouse click on an old button does not wedge: the press runs
      `Update`'s advance, which completes the typed line first, and the
      release then starts the second choice's scene normally. The second
      choice's effects come on top of the first's, so choosing the same
      button twice counts its affection twice. */
  lemma ClickedSecondChoiceRestarts(c: Cursor, g: GameState.State, store: SceneStore.Store, first: Choice, second: Choice, n: string)
    requires Inv(c) && !c.typing && c.choicesOpen && second in c.offered
    requires first.nextScene in store.sceneDictionary && second.nextScene in store.sceneDictionary
    requires |store.sceneDictionary[first.nextScene].dialogueLines| > 0
    requires |store.sceneDictionary[first.nextScene].dialogueLines[0].dialogueText| > 0
    requires n in g.affection
    ensures var (o, g2) := OnChoiceSelected(c, g, store, first);
            var pressed := DisplayNextLine(o.state);
            var (o2, g3) := OnChoiceSelected(pressed.state, g2, store, second);
            && pressed.fault.None? && !pressed.state.typing && pressed.state.offered == c.offered
            && o2.fault.None? && o2.state.scene == Some(store.sceneDictionary[second.nextScene])
            && GameState.GetAffection(g3, n)
               == GameState.GetAffection(g, n) + AffectionSum(first.effects, n) + AffectionSum(second.effects, n)
  {
    var (o, g2) := OnChoiceSelected(c, g, store, first);
    assert Inv(o.state) && o.state.typing;
    var pressed := DisplayNextLine(o.state);
    assert Inv(pressed.state) && !pressed.state.typing;
  }

  // ---------------------------------------------------------------------------
  // The demo story's opening

  function Line(who: string, text: string, e: Expression): DialogueLine {
    DialogueLine(who, text, None, None, e)
  }

  /** The first demo scene. */
  function Scene11(): SceneData {
    SceneData(
      "scene_1_1",
      [Line("Alice", "你好，旅行者！欢迎来到我们的世界。", Happy),
       Line("Bob", "我是Bob，很高兴认识你。", Normal)],
      [Choice("向Alice问好", "alice_route_1", [("affection_Alice", 5)]),
       Choice("向Bob问好", "bob_route_1", [("affection_Bob", 5)]),
       Choice("探索Carol的秘密", "carol_route_1", [("affection_Carol", 5)])],
      None, None)
  }

  /** Alice's first route scene, with its opening line and its choices. */
  function AliceRoute1(): SceneData {
    SceneData(
      "alice_route_1",
      [Line("Alice", "谢谢你选择了我！让我们开始魔法学院的冒险吧！", Happy)],
      [Choice("学习火焰魔法", "alice_route_2_fire", [("affection_Alice", 10), ("flag_fire_magic", 1)]),
       Choice("学习冰霜魔法", "alice_route_2_ice", [("affection_Alice", 10), ("flag_ice_magic", 1)])],
      None, None)
  }

  /** The demo content as loaded at start-up. */
  function DemoStore(): SceneStore.Store {
    SceneStore.InitializeScenes([], [Scene11(), AliceRoute1()])
  }

  lemma DemoStoreHolds()
    ensures "scene_1_1" in DemoStore().sceneDictionary
    ensures DemoStore().sceneDictionary["scene_1_1"] == Scene11()
    ensures "alice_route_1" in DemoStore().sceneDictionary
    ensures DemoStore().sceneDictionary["alice_route_1"] == AliceRoute1()
  {
    SceneStore.InitializeScenesValid([], [Scene11(), AliceRoute1()]);
  }

  /** A new game on the demo content: both lines of the first scene take two
      advances each (one to finish typing, one to move on), so the choices
      appear at the fifth step counting the start, not after two advances;
      the first choice then raises Alice's affection to 5 and moves to her
      route. */
  lemma DemoOpening()
    ensures var c1 := StartScene(Initial(), DemoStore(), "scene_1_1").state;
            var c3 := Advance(Advance(c1));
            var c5 := Advance(Advance(c3));
            && c1.lineIndex == 1 && c1.typing && c1.speaker == "Alice"
            && c3.lineIndex == 2 && c3.typing && !c3.choicesOpen
            && c5.lineIndex == 2 && c5.choicesOpen && c5.offered == Scene11().choices
            && var (o, g2) := OnChoiceSelected(c5, GameState.InitializeGameData(GameState.Empty()), DemoStore(), c5.offered[0]);
               && o.fault.None?
               && GameState.GetAffection(g2, "Alice") == 5
               && GameState.GetAffection(g2, "Bob") == 0
               && o.state.scene == Some(AliceRoute1())
               && o.state.lineIndex == 1
  {
    DemoStoreHolds();
    InitialInv();
    var c1 := StartScene(Initial(), DemoStore(), "scene_1_1").state;
    var c3 := Advance(Advance(c1));
    var c5 := Advance(Advance(c3));
    assert c1.lineIndex == 1 && c1.typing && Inv(c1) && c1.scene == Some(Scene11());
    assert c3.lineIndex == 2 && c3.typing && Inv(c3) && c3.scene == Some(Scene11()) && !c3.choicesOpen;
    assert c5.choicesOpen && c5.offered == Scene11().choices;
    DemoFirstChoice(c5);
  }

  /** The first choice of the first scene, taken on a new game. */
  lemma DemoFirstChoice(c: Cursor)
    requires Inv(c) && !c.typing
    ensures var (o, g2) := OnChoiceSelected(c, GameState.InitializeGameData(GameState.Empty()), DemoStore(), Scene11().choices[0]);
            && o.fault.None?
            && GameState.GetAffection(g2, "Alice") == 5
            && GameState.GetAffection(g2, "Bob") == 0
            && o.state.scene == Some(AliceRoute1())
            && o.state.lineIndex == 1
  {
    DemoStoreHolds();
    DemoFirstEffect();
  }

  /** The first choice's effect on a new game. */
  lemma DemoFirstEffect()
    ensures var g := ApplyEffects(GameState.InitializeGameData(GameState.Empty()), Scene11().choices[0].effects);
            GameState.GetAffection(g, "Alice") == 5 && GameState.GetAffection(g, "Bob") == 0
  {
    var g := GameState.InitializeGameData(GameState.Empty());
    var es := Scene11().choices[0].effects;
    assert es == [("affection_Alice", 5)];
    Text.RemovePrefixOnly("Alice", AffectionPrefix);
    assert AffectionPrefix + "Alice" == "affection_Alice";
    assert ApplyEffects(g, es) == ApplyEffects(ApplyEffect(g, "affection_Alice", 5), es[1..]);
    assert es[1..] == [];
  }

  /** The affection range declared in the configuration is never enforced:
      one choice can take a character past the maximum. */
  lemma AffectionUnbounded(g: GameState.State)
    requires "Alice" in g.affection && GameState.GetAffection(g, "Alice") == GameState.MaxAffection
    ensures GameState.GetAffection(GameState.ChangeAffection(g, "Alice", 10), "Alice") > GameState.MaxAffection
  {
  }
}

=== FILE: wrappers.dfy ===
/** The nullable references of the C# code (a scene, a character, a sprite, a
    next-scene id) are modelled as an Option: `None` plays the part of `null`. */
module Wrappers {

  datatype Option<+T> = None | Some(value: T)
}
